=== FILE: README.md ===
# ElevenLabs webhook-to-CRM pipeline, modelled in Dafny

This project models the core of a small Node.js service. The service receives
ElevenLabs conversation webhooks, stores events in PostgreSQL, has a language model
analyse the call transcripts, and forwards the result to two places: a local markdown
"CRM journal" and an external CRM (a BPMSoft landing).

The model follows the code file by file:

- `signature.dfy` and `webhook.dfy` model `src/server.js`:
  - `Signature.Verify` is the signature check;
  - `Webhook.Endpoint` is the webhook handler with its event log.
- `store.dfy` models `src/db.js`. `Store.Database` is a class holding the three tables (`webhook_events`, `analyses`, `crm_dispatches`) as sequences. Its methods evaluate the SQL each function sends.
- `analysis.dfy` models `src/analysis.js`. The prompt text is assembled here. The language model and `JSON.parse` are function parameters of `Analysis.Backend`.
- `external_crm.dfy` models `src/externalCrm.js`. It contains:
  - the commentary, contact and payload builders;
  - the basic-auth header;
  - the retry loop (`ExternalCrm.Deliver`), driven by a function giving the outcome of the k-th POST.
- `crm_writer.dfy` models `src/crmWriter.js`. It contains `safe`, the markdown entry and the append to the journal (`CrmWriter.Journal`).
- `events_route.dfy` models `src/routes/events.js`. It contains:
  - page and limit reading;
  - the `where` builder and its placeholder numbering;
  - the listing query over the store;
  - the single-event view.
- `analyze_route.dfy` models `src/routes/analyze.js`: `doAnalyze` and the `/analyze` and `/analyze/next` handlers. The model name stored with an analysis is the analysis backend's own `model` (`ANALYZE_MODEL || 'gpt-5'`), so the two cannot differ.

Shared helpers:

- `wrappers.dfy`: `Option` and `Result`.
- `js.dfy`: JSON values, truthiness, `||`, `??` and `String()`.
- `text.dfy`: split, join and trim.
- `decimal.dfy`: `parseInt`, and decimal text for integers and for PostgreSQL `bigint`.
- `hex.dfy`: Node's lenient hex decoder and lower-case hex encoder.
- `base64.dfy`: Base64 as in section 4 of RFC 4648, and UTF-8.

Values that come from outside the program are parameters. These are:

- the environment;
- the clock;
- HMAC-SHA256;
- the language model;
- `JSON.parse` and `JSON.stringify`;
- `new Date(...)`;
- `fetch`;
- the outcome of file writes.

JavaScript `undefined` is `Option.None`. SQL NULL is `None` in rows and `JNull` in JSON.

Where the code and descriptions of the system differ, the model follows the code:

- Only the `t=` and `s=` header keys are recognised.
- There is no dry-run mode.
- `sendLeadAnalytics` neither consults `hasSuccessfulCrmDispatch` nor records an attempt. `AnalyzeRoute.DoAnalyze` states that `crm_dispatches` is unchanged.
- No phone number is split into prefix and local part.
- No lead field is mandatory beyond the truthiness filter.
- A repeated `markProcessed` reports the number of matched rows again, not 0 (`Store.RepeatedMark`).

## Model

| member | source | states |
|---|---|---|
| Signature.FindWithPrefixFirst | src/server.js:30-32 | The find succeeds iff some token has the prefix, and it returns the first such token |
| Signature.HeaderFields | src/server.js:30-35 | Fields are found iff both a `t=` and an `s=` token exist, and they are the texts after the prefixes of the first such tokens |
| Signature.Verify | src/server.js:27-51 | Acceptance implies a present, non-empty header and a non-empty secret |
| Signature.VerifyMeaning | src/server.js:27-51 | Accepted iff all of the following hold: the header and secret are non-empty; both a `t=` and an `s=` token exist (first of each wins); `parseInt` of the timestamp is within the tolerance, boundary included; the hex-decoded signature equals the HMAC of the raw timestamp text, a dot and the raw body |
| Signature.AppendedTokensIgnored | src/server.js:30-35 | Tokens after a header that already has `t=` and `s=` tokens do not change the verdict |
| Signature.PrependedTokensIgnored | src/server.js:30-35 | Tokens before the header that are neither `t=` nor `s=` do not change the verdict |
| Signature.TwoTokenFields | src/server.js:29-35 | A `t=` token and an `s=` token, in either order, yield the two texts after the prefixes |
| Signature.SignedHeaderAccepted | src/server.js:22-47 | Soundness: a header with a decimal timestamp inside the window and the hex HMAC of that text, a dot and the body is accepted, whichever token comes first |
| Signature.StaleTimestampRejected | src/server.js:37-40 | A timestamp whose distance from now exceeds the tolerance is rejected, whatever the signature |
| Signature.FreshDigits | src/server.js:38-40 | A non-empty all-digit timestamp within the tolerance counts as fresh |
| Signature.OwnDigestMatches | src/server.js:42-47 | The hex digest the server computes decodes to bytes equal to the HMAC |
| Hex.DecodeEncode | src/server.js:44-45 | Decoding the lower-case hex encoding gives back the bytes |
| Hex.DecodePair | src/server.js:44-45 | The two digits written for a byte decode back to that byte |
| Decimal.ParseIntOfDigits | src/server.js:38 | `parseInt` reads a non-empty digit string as its decimal value, leading zeros included |
| Decimal.ParseIntOfDecimal | src/routes/events.js:107 | `parseInt(String(n), 10)` is `n` for every integer, negative ones included |
| Decimal.BigintFromText | src/db.js:136 | PostgreSQL's `bigint` input: white space around the number is skipped, then an optional sign and digits; an accepted text denotes a value in the signed 64-bit range |
| Decimal.SurroundingSpaceIgnored | src/db.js:136 | White space before and after a number does not change how it is read |
| Decimal.BigintFromPaddedDecimal | src/db.js:145-146 | The decimal text of a 64-bit integer, padded with white space on either side, reads as that integer (`' 5 '` is 5) |
| Decimal.BigintFromDecimal | src/db.js:136 | The decimal text of a 64-bit integer is accepted as a `bigint` with the same value |
| Base64.Encode | src/externalCrm.js:14 | Every three bytes, and a padded final group, become four characters |
| Base64.DecodeEncode | src/externalCrm.js:14 | Decoding the Base64 text of any bytes gives back exactly those bytes |
| Signature.VerifyFromFields | src/server.js:27-51 | A non-empty header whose fields are fresh and whose digest matches is accepted |
| Webhook.Normalise | src/server.js:88-92 | A body that is not an object is logged as it came; a missing body or an object yields an object |
| Webhook.NormaliseMeaning | src/server.js:88-92 | After normalising an object body, each `has_*` flag is a boolean equal to the truthiness of the old value |
| Webhook.EmptyBodyNormalised | src/server.js:88-92 | A missing body is logged as an object whose three flags are all `false` |
| Webhook.Endpoint.Receive | src/server.js:63-102 | The answer is 401 iff verification of the header against the raw body (empty when absent) fails. A 401 answers "invalid signature" and appends nothing. Otherwise the answer is 200 "ok" and exactly one envelope is appended: time, signature header, normalised event |
| Store.TextOrNull | src/db.js:103-105 | `v \|\| null` for text: NULL exactly for a missing or empty value, otherwise the value |
| Store.JsonbValue | src/db.js:145-146 | What a `jsonb` column stores for a bound JavaScript value: objects, numbers and booleans as they are; `[]` as `{}` and any other array rejected (node-postgres sends arrays as array literals); a string as PostgreSQL reads its raw text; NULL rejected by the NOT NULL column |
| Store.Database.InsertWebhookEvent | src/db.js:82-113 | With no database: `inserted: false` and no change. When a constraint would fail, or the `jsonb` column rejects the payload: an error and no change. Otherwise exactly one unprocessed row is appended, with the next id, NULL for falsy text keys, the audio flags as given and the payload as `jsonb` reads it; the other tables are unchanged |
| Store.ToBigint | src/db.js:136 | A value accepted as a `bigint` parameter lies in the signed 64-bit range; numeric strings are read as PostgreSQL reads them, white space included |
| Store.IdSet | src/db.js:136-137 | The id array is accepted iff no element is invalid, and then the set is exactly the ids of its non-null elements |
| Store.OldestUnprocessed | src/db.js:117-125 | At most `limit` rows (`OldestUnprocessedMeaning` gives the rest) |
| Store.Database.FetchUnprocessed | src/db.js:115-127 | With no database: no rows. Otherwise the query result: at most `limit` rows, each an unprocessed row of the table, sorted by timestamp, with no unprocessed row left out older than one returned |
| Store.OldestUnprocessedMeaning | src/db.js:117-125 | The fetched rows: number is `min(limit, unprocessed)`, all unprocessed and in the table, ascending by timestamp, and none left out is older |
| Store.FetchedAreUnprocessed | src/db.js:121 | Every fetched row is an unprocessed row of the table |
| Store.FetchedSorted | src/db.js:122 | The fetched rows are in non-decreasing timestamp order |
| Store.FetchedOldest | src/db.js:122-123 | No unprocessed row left out of the fetch is older than a fetched one |
| Store.InsertKeepsSorted | src/db.js:122 | Inserting a row into a timestamp-sorted sequence keeps it sorted |
| Store.SortByTimestamp | src/db.js:122 | `order by event_timestamp`: a permutation of the rows, sorted by timestamp |
| Store.InSorted | src/db.js:122 | Sorting keeps exactly the rows it was given |
| Store.Database.MarkProcessed | src/db.js:129-140 | With no database or no ids: `updated: 0` and no change. When an id is not a bigint: an error and no change. Otherwise the count of matching rows, and the table becomes `MarkAll` of the matched ids |
| Store.MarkAll | src/db.js:130-137 | The update touches every row once: the table keeps its length (`MarkAllEffect` gives each row) |
| Store.MarkAllEffect | src/db.js:132-136 | A matched row becomes processed at `now`, and its note is replaced only by a non-empty note. Every unmatched row is unchanged |
| Store.MarkAllKeepsIds | src/db.js:132-136 | The update changes no id and keeps the set of existing events |
| Store.RepeatedMark | src/db.js:129-140 | Marking the same ids again keeps them processed and their note, and reports the same count again rather than 0 |
| Store.CountMatchingBound | src/db.js:139 | `rowCount` is at most the table size, 0 when no id matches, and all rows when every id matches |
| Store.Database.InsertAnalysis | src/db.js:142-149 | With no database: `inserted: false` and no change. An unknown, NULL or non-bigint event id, or a result the `jsonb` column rejects (`JsonbValue`), fails and changes nothing. Otherwise exactly one row is appended, with the next id, the event id, the model and the result as `jsonb` stores it, and that id is returned |
| Store.HasSuccess | src/db.js:153-157 | True iff some dispatch row has this event id and status `success` |
| Store.Database.HasSuccessfulCrmDispatch | src/db.js:151-158 | False without a database; otherwise true iff a `success` row exists for the event |
| Store.Database.InsertCrmDispatchAttempt | src/db.js:160-167 | Only appends, with an empty response text stored as NULL and the payload as `jsonb` stores it; earlier rows are untouched. No database means `inserted: false`; a constraint failure or a payload `jsonb` rejects means an error and no change |
| Store.FindEvent | src/db.js:171-177 | Finds the row with this id iff one exists |
| Store.Database.GetEventById | src/db.js:169-178 | null without a database; otherwise the row with that id, found whenever it exists |
| Store.LatestAnalysis | src/db.js:183-188 | None iff the event has no analysis; otherwise one of its analyses, with no analysis of the event created later |
| Store.Database.GetLatestAnalysisByEventId | src/db.js:180-191 | null without a database; otherwise the event's analysis with the greatest `created_at` |
| Store.RowToJson | src/db.js:118-119 | A fetched row as JavaScript sees it: an object whose `id` is the decimal text node-postgres returns for a `bigint`, and whose payload is the stored one |
| Store.RowIdRoundTrip | src/db.js:118-119 | The text id of a fetched row is read back as the same `bigint` |
| Analysis.ModelName | src/analysis.js:16 | `ANALYZE_MODEL \|\| 'gpt-5'`: never empty, and the environment value when set |
| Analysis.RoleLabel | src/analysis.js:51 | A falsy role reads `UNKNOWN`, a truthy text role is upper-cased, and any other role throws |
| Analysis.TranscriptToText | src/analysis.js:49-52 | A missing or non-array transcript gives the empty text; an array gives text iff every turn's line can be built |
| Analysis.TurnLines | src/analysis.js:51 | The lines succeed iff every turn's line does, one line per turn in order |
| Analysis.TranscriptLines | src/analysis.js:49-52 | For readable turns without line breaks, splitting the text on `\n` gives back one `ROLE: message` line per turn |
| Analysis.UserContentLayout | src/analysis.js:62-66 | The user content starts with the custom section only when the custom prompt is non-empty, always contains the transcript section, and ends with the extra section only when that is non-empty; sections are separated by a blank line |
| Analysis.ContentOrEmpty | src/analysis.js:98 | Missing or empty reply content becomes `{}`; non-empty content is kept as it is, so the parser never sees an empty text |
| Analysis.AnalyzeTranscript | src/analysis.js:54-120 | No API key gives an error before any request. A transcript that throws gives its error. A failed request is rethrown unchanged. Otherwise the parsed content is returned unvalidated, or `{}` when it does not parse |
| Analysis.AnalyzeRawText | src/analysis.js:122-164 | Same, with temperature 0.2 and the raw-text heading; unparseable content is a `SyntaxError` |
| Analysis.UnparseableContent | src/analysis.js:102-119 | For every transcript that can be read, every pair of prompts and every reply whose content does not parse: the transcript analysis returns `{}` while the raw-text analysis fails with a `SyntaxError` |
| Analysis.EmptyReplyIsEmptyObject | src/analysis.js:98-102 | With a missing or empty reply content, and `JSON.parse('{}')` giving `{}`, both analyses return the empty object |
| ExternalCrm.AuthorizationHeader | src/externalCrm.js:12-18 | The header is empty iff the user or the password is empty |
| ExternalCrm.AuthorizationDecodes | src/externalCrm.js:12-18 | With both set, the header is `Basic ` plus a token that decodes to the UTF-8 bytes of `user:pass` |
| ExternalCrm.CommentaryParts | src/externalCrm.js:20-29 | One to seven parts, the last always the ids part (`CommentaryPartsOrder` gives the whole list) |
| ExternalCrm.Labelled | src/externalCrm.js:22-27 | A labelled part appears iff its value is truthy, and is then the heading followed by `String(value)` |
| ExternalCrm.CommentaryPartsOrder | src/externalCrm.js:20-28 | For every event and analysis, the parts in order: topic, intent, outcome, Russian summary and recommendations each iff truthy, quality (placed after intent) iff the key is defined, then the ids part |
| ExternalCrm.Commentary | src/externalCrm.js:20-30 | The joined commentary always ends with the ids part |
| ExternalCrm.CommentaryShape | src/externalCrm.js:20-30 | The commentary is non-empty and ends with the ids part. Without an analysis object it is exactly the ids part |
| ExternalCrm.QualityZeroCommented | src/externalCrm.js:24 | For every event and every analysis whose quality is 0, the part `Качество: 0` is present, although 0 is falsy |
| ExternalCrm.CommentaryNotEmpty | src/externalCrm.js:28-29 | The commentary is never empty |
| ExternalCrm.ExtractContact | src/externalCrm.js:32-43 | Each contact field is the first truthy source in its precedence chain, or `''` |
| ExternalCrm.PayloadContactWins | src/externalCrm.js:39 | For every event whose `payload.data.contact` has a truthy `fullName` or `name`, the full name is that value (`fullName` first), whatever the other sources hold |
| ExternalCrm.KeepTruthy | src/externalCrm.js:60 | `filter(f => f.value)`: keeps exactly the truthy fields, never more of them (`KeepTruthyAppend` gives the order) |
| ExternalCrm.KeepTruthyAppend | src/externalCrm.js:60 | The filter keeps the order: filtering a concatenation concatenates the filtered parts |
| ExternalCrm.KeepTruthyThree | src/externalCrm.js:62-66 | Three fields are kept in their order, each iff its value is truthy |
| ExternalCrm.ContactFields | src/externalCrm.js:62-66 | Exactly FullName, Phone and Email in this order, each present iff the extracted value is truthy, and carrying that value |
| ExternalCrm.BuildPayload | src/externalCrm.js:45-73 | The payload carries the landing id and the contact fields, and its fields start with Commentary and UsrQualificationComment, both the commentary |
| ExternalCrm.CommentaryFieldsLead | src/externalCrm.js:50-52 | Commentary and UsrQualificationComment are always the first two fields, both carrying the commentary |
| ExternalCrm.QualityScoreField | src/externalCrm.js:56 | UsrQualityScore is sent iff the quality is neither null nor undefined and its text is non-empty, and then its value is `String(quality)` |
| ExternalCrm.EventIdField | src/externalCrm.js:57 | UsrEventId is sent iff the event id is non-null with non-empty text |
| ExternalCrm.FieldKept | src/externalCrm.js:60 | A field whose name is unique survives the filter exactly when its value is truthy |
| ExternalCrm.LeadFieldKept | src/externalCrm.js:53-60 | The same for each named lead field after the two commentary fields |
| ExternalCrm.TextFieldKept | src/externalCrm.js:53-60 | A text-valued lead field survives exactly when its text is non-empty |
| ExternalCrm.Headers | src/externalCrm.js:75-79 | Content-Type first, and the Authorization header present iff both credentials are set |
| ExternalCrm.Backoff | src/externalCrm.js:114 | The wait before retry k is 300·k ms |
| ExternalCrm.Deliver | src/externalCrm.js:104-122 | Between 1 and retries+1 POSTs, with waits of 300, 600, … ms between them. Sent iff the last POST was 2xx, and no earlier one was. On giving up, exactly retries+1 POSTs were made, and the result is the last status and body, or the last error |
| ExternalCrm.SendLeadAnalytics | src/externalCrm.js:96-123 | Disabled is checked first, then a missing URL or landing id; neither case makes a POST. Otherwise the lead request is built and delivered as `Deliver` states; it never throws |
| CrmWriter.Enabled | src/crmWriter.js:5 | Enabled iff the variable is unset, empty or `true` |
| CrmWriter.Safe | src/crmWriter.js:8-12 | The fallback for null or undefined, the JSON text of arrays and objects, the string itself, `true`/`false`, and the number text otherwise |
| CrmWriter.Bullets | src/crmWriter.js:17-25 | Nine bullet lines |
| CrmWriter.EntryLines | src/crmWriter.js:14-41 | Splitting the entry on newlines gives two empty lines, the heading, an empty line, and the nine bullets in order (agent, dialog, source, topic, intent, quality, outcome, summary, recommendations) |
| CrmWriter.FormatCrmEntry | src/crmWriter.js:14-41 | The entry starts with `\n\n` followed by the heading line, which carries the time and `safe(eventRow.id)` |
| CrmWriter.OrEmpty | src/crmWriter.js:50 | `x \|\| {}`: never null, and the value itself when truthy |
| CrmWriter.Journal.Append | src/crmWriter.js:43-56 | Disabled: no write. A failed write: an error result and no change. Otherwise exactly one entry is appended, formatted from `eventRow \|\| {}` and `analysis \|\| {}`. Every case returns a result |
| EventsRoute.PageNumber | src/routes/events.js:17 | Absent or empty: 1. Otherwise None iff `parseInt` gives NaN, the value when it is at least 1, and 1 below that |
| EventsRoute.PageSize | src/routes/events.js:18 | Absent or empty: 20. Otherwise None iff `parseInt` gives NaN, the value when between 1 and 100, 1 below and 100 above |
| EventsRoute.TotalPagesBounds | src/routes/events.js:97 | The page count is 0 iff there are no rows; otherwise (pages−1)·limit < total ≤ pages·limit |
| EventsRoute.EpochSeconds | src/routes/events.js:6-11 | A falsy value gives no bound. Otherwise the floor of the parsed milliseconds divided by 1000 |
| EventsRoute.ConditionEndsWithPlaceholder | src/routes/events.js:30-38 | Each condition ends with the placeholder of its own value |
| EventsRoute.Push | src/routes/events.js:29-39 | Pushing a value and then its condition, numbered by the new length, extends the filter correspondence by one |
| EventsRoute.BuildWhere | src/routes/events.js:25-41 | One condition and one value per truthy filter, in the order from, to, agent. Condition k names placeholder k+1 and value k is its filter's. `whereSql` is empty without conditions, otherwise `where` followed by the conditions joined by ` and ` |
| EventsRoute.EpochZeroBoundIgnored | src/routes/events.js:28-33 | A date bound at epoch second 0 is falsy and adds no filter |
| EventsRoute.AddPaging | src/routes/events.js:47-50 | The limit and offset placeholders are the next two numbers after the filter values, and name those values |
| EventsRoute.Selected | src/routes/events.js:73 | Exactly the table rows that pass every filter |
| EventsRoute.ReverseMembers | src/routes/events.js:74 | Reversing keeps the rows |
| EventsRoute.NewestFirstOrder | src/routes/events.js:74 | `order by event_timestamp desc`: the same rows, newest first |
| EventsRoute.Window | src/routes/events.js:75 | `limit … offset …`: at most `limit` consecutive rows starting at the offset, and none past the end |
| EventsRoute.WindowMeaning | src/routes/events.js:75 | A window of newest-first rows keeps that order and holds only rows of the sequence |
| EventsRoute.PageRowsMeaning | src/routes/events.js:17-19 | A page holds at most `limit` rows, each passing every filter, newest first |
| EventsRoute.WindowsAdjacent | src/routes/events.js:75 | Two adjacent windows together make one window of twice the size |
| EventsRoute.PagesAdjacent | src/routes/events.js:19 | Page p+1 starts where page p ends |
| EventsRoute.ConsecutivePages | src/routes/events.js:19 | Pages p and p+1 together are the window of 2·limit rows at page p's offset: no gap and no overlap |
| EventsRoute.ToSummary | src/routes/events.js:80-95 | Falsy topic, outcome, client name and phone become null. The quality becomes null only when null or missing |
| EventsRoute.Summaries | src/routes/events.js:80 | One summary per row, with the row's latest analysis |
| EventsRoute.ListPage | src/routes/events.js:17-98 | The `where` clause and the list query's parameters correspond to the filters (the filter values, then limit and offset). A NaN page or limit fails the query, and so does an offset beyond `bigint`. Otherwise: the page of filtered rows, newest first, with their latest analyses; the filtered count as total; and the page count |
| EventsRoute.ListEvents | src/routes/events.js:13-102 | Without a database: empty data and pagination {1, 20, 0, 0}. Otherwise the same as ListPage, with the query values read: a failure for a NaN page or limit or an offset beyond `bigint`, else the page |
| EventsRoute.Lookup | src/routes/events.js:106-129 | No database gives `not_found`. NaN gives `bad_id`. An id outside `bigint` fails. Otherwise the row is found iff it exists, and is then returned with its latest analysis; `not_found` iff it is missing |
| EventsRoute.GetEvent | src/routes/events.js:104-133 | `/events/:id` with the id read by `parseInt`: the same cases as `Lookup`, the row found iff it exists |
| AnalyzeRoute.IdSetSingle | src/routes/analyze.js:22 | `[event.id]` names exactly that event id |
| AnalyzeRoute.TranscriptOf | src/routes/analyze.js:17 | A truthy `payload.data.transcript` is taken as it is; otherwise `[]` |
| AnalyzeRoute.Notify | src/routes/analyze.js:23-33 | The journal gains the entry when it is enabled and the write succeeds. Nothing of either outcome reaches the caller |
| AnalyzeRoute.Save | src/routes/analyze.js:21-22 | No database: no id and no change. An analysis that cannot be stored: an error and no change. Otherwise exactly one analysis row with the next id, `event.id`, the backend's model and the stored result, and the event marked processed with the worker's note; `crm_dispatches` is unchanged |
| AnalyzeRoute.Record | src/routes/analyze.js:21-34 | The tables change as `Save` states; the journal gains the entry only when the result was stored (or there is no database), and is unchanged on an error |
| AnalyzeRoute.DoAnalyze | src/routes/analyze.js:16-35 | The transcript is read from `payload.data.transcript` (default `[]`). A failed analysis changes no table and no journal and returns its error. Otherwise the result is recorded as `Record` states |
| AnalyzeRoute.OutcomeFields | src/routes/analyze.js:34 | The answer holds `result`, plus `analysis_id` exactly when an id was returned |
| AnalyzeRoute.PostAnalyze | src/routes/analyze.js:37-47 | A falsy `event.id` or `event.payload` gives 400 `bad_request` with no change. Otherwise every non-200 answer is 500 `analysis_failed` with details: a failed analysis changes no table and no journal; a successful analysis changes the tables as `Save` states, whether or not it can be stored. 200 iff the result can be stored (or there is no database), and then the body is the outcome (with the new id when there is a database) and the journal gains the entry; any other answer leaves the journal unchanged |
| AnalyzeRoute.NextRow | src/routes/analyze.js:51-53 | Nothing is fetched iff every row is processed. Otherwise the fetched row is unprocessed, and no unprocessed row is older |
| AnalyzeRoute.ProcessedAfterMark | src/routes/analyze.js:22 | After the update the marked row is processed |
| AnalyzeRoute.AnalyzeRow | src/routes/analyze.js:53-56 | A failed analysis gives 500 `analysis_failed` with its details and no change. Otherwise the tables change as `Save` states; 200 iff the result can be stored, with the outcome, the new analysis id and `event_id` as the row's id text, and the journal entry; a non-200 answer is 500 `analysis_failed` and leaves the journal unchanged |
| AnalyzeRoute.PostAnalyzeNext | src/routes/analyze.js:49-60 | `nothing_to_analyze` with no change to tables, id counter or journal iff there is no database or no unprocessed row. Otherwise the oldest unprocessed event is analysed as `AnalyzeRow` states, and on 200 it carries `event_id` and is now processed |

## Left out

- HMAC-SHA256, `JSON.parse`, `JSON.stringify`, the language model, `new Date(...)` and `fetch` are function parameters. They are not computed.
- Constant-time comparison (`crypto.timingSafeEqual`) is modelled as byte-sequence equality. Timing is not expressible.
- Reading the numeric settings from the environment is left out: `WEBHOOK_TOLERANCE_SEC` (default 1800), `OPENAI_TIMEOUT_MS` (30000), `CRM_TIMEOUT_MS` (8000) and `CRM_MAX_RETRIES` (2) are given as fields of the endpoint, the backend and the CRM configuration.
- A `WEBHOOK_TOLERANCE_SEC` that is not a number disables the freshness check in the source. Here the tolerance is always an integer.
- Signature.Verify: integers are unbounded. A timestamp beyond 2^53 loses precision in JavaScript but not here.
- The JSONL event log of `src/server.js` is a sequence of envelopes (`Webhook.Endpoint.log`). Serialisation to text and file-write failures are left out.
- The body parser's 400 answer to invalid JSON, and the `/health` route, are left out.
- Bottleneck rate limiting in `src/routes/analyze.js` is left out: each scheduled call runs directly, one after another.
- Debug logging (`src/logger.js` and the `dbg` calls) is left out.
- `response_format` and the system prompt wording (`buildSystemPrompt`) are not reproduced: the system prompt is a field of `Analysis.Backend`.
- Request timeouts of the model client and of `fetch` appear only as their outcome: a failed reply or a thrown POST.
- `sleep` is not performed. The waits are returned as a list of durations.
- ExternalCrm.Deliver: a `CRM_MAX_RETRIES` that is not a number makes the source loop forever. Here the setting is an integer, and a negative value allows no retry.
- Numbers are integers. Floating-point values, and their `String()` forms with fractions or exponents, are left out.
- JSON object key order is not modelled: objects are maps.
- EventsRoute.ListEvents: query values given as arrays (`?page=1&page=2`) are left out. Every query value is one string or absent.
- EventsRoute.ListPage: the offset arithmetic is exact. An offset between 2^53 and the `bigint` maximum loses precision in JavaScript; that rounding is left out (the query still succeeds in both).
- Decimal.BigintFromText: the `0x`, `0o` and `0b` prefixes and the `_` digit separators that PostgreSQL 16 accepts in integer input are left out.
- Store: the SQL engine is not modelled, only the semantics the queries state. Ties in `order by` are broken deterministically:
  - equal timestamps keep table order, oldest-inserted first ascending and newest-inserted first descending;
  - the last-inserted analysis wins equal `created_at`.
- Store: `received_at`, `processed_at` and `created_at` take the `now` parameter in place of the database clock.
- Store.RowToJson: the object for a fetched row omits `received_at`, which none of the modelled callers read.
- Store.Database.InsertWebhookEvent: `event_type` and `event_timestamp` are always given, so the NOT NULL violation for a missing one is not represented. No modelled caller invokes this insert.
- Store.Database.InsertCrmDispatchAttempt and Store.Database.HasSuccessfulCrmDispatch take the event id as an integer. No modelled caller invokes them.
- Store.Database.GetEventById and Store.Database.GetLatestAnalysisByEventId take the event id as an integer and answer null for one outside the `bigint` range, where the source's query fails with "value out of range for type bigint". Their one caller, `EventsRoute.Lookup`, answers that failure itself before calling them.
- The pool setup and `ensureSchema` are left out. The schema only fixes columns, constraints and defaults.
- Analysis.RoleLabel and Analysis.TurnLine: a `TypeError` thrown while building a line is reported as the text `TypeError`; the engine's message that `String(e)` would add is left out.
- Store: the error texts of failed queries are placeholders, not PostgreSQL's messages.
- Store.JsonbValue: PostgreSQL's JSON reader is the `readJson` parameter; where it differs from `JSON.parse` (number precision, `\u0000`) is left out.
- EventsRoute.GetEvent: ids are read exactly. The loss of precision beyond 2^53, and an id text so long that `parseInt` gives Infinity (400 `bad_id`), are left out.
- `toUpperCase` is modelled for ASCII letters only: Unicode case mapping is left out.
- `scripts/analyze-csv.js` and `init-schema.js` are not part of this model.

=== FILE: analysis.dfy ===
/** src/analysis.js: the transcript is flattened to "ROLE: message" lines, placed in the
    user message between optional custom instructions and optional extra content, and
    sent with the fixed system prompt to a chat-completion backend; the reply content is
    parsed as JSON. The backend call and `JSON.parse` are parameters. */
module Analysis {
  import opened Wrappers
  import opened Js
  import Text

  /** `process.env.ANALYZE_MODEL || 'gpt-5'`. */
  function ModelName(env: string): (m: string)
    ensures m != ""
    ensures env != "" ==> m == env
  {
    if env == "" then "gpt-5" else env
  }

  datatype ChatRequest = ChatRequest(
    model: string,
    system: string,
    user: string,
    temperature: Option<real>,
    timeoutMs: int)

  /** What the completion call gives: the first choice's message content (`None` when
      it is missing or null), or the error it throws. */
  datatype ChatReply = Replied(content: Option<string>) | Failed(error: string)

  /** The configured backend. `systemPrompt` is the fixed instruction text of
      `buildSystemPrompt`; `complete` is the completion call and `parse` is `JSON.parse`
      (`None` for a syntax error). */
  datatype Backend = Backend(
    apiKeyConfigured: bool,
    model: string,
    timeoutMs: int,
    systemPrompt: string,
    complete: ChatRequest -> ChatReply,
    parse: string -> Option<Json>)

  const NoApiKeyError: string := "Error: OPENAI_API_KEY not configured"
  const TypeError: string := "TypeError"

  /** The role part of a turn's line: `(t.role || 'unknown').toUpperCase()`, which throws
      when the role is truthy but not a string. */
  function RoleLabel(role: Option<Json>): (r: Result<string>)
    ensures !Truthy(role) ==> r == Ok("UNKNOWN")
    ensures Truthy(role) ==> (r.Ok? <==> role.value.JStr?)
    ensures Truthy(role) && role.value.JStr? ==> r == Ok(Text.ToUpper(role.value.s))
  {
    if !Truthy(role) then Ok("UNKNOWN")
    else if role.value.JStr? then Ok(Text.ToUpper(role.value.s))
    else Err(TypeError)
  }

  /** One turn's line, `${ROLE}: ${t.message || ''}`; a `null` turn throws. */
  function TurnLine(t: Json): Result<string> {
    if t.JNull? then Err(TypeError)
    else
      var role := RoleLabel(Prop(Some(t), "role"));
      if role.Err? then Err(role.error)
      else Ok(role.value + ": " + ToText(Or(Prop(Some(t), "message"), Some(JStr(""))).value))
  }

  /** `turns.map(...)`: the lines in order, or the first error. */
  function TurnLines(turns: seq<Json>): (r: Result<seq<string>>)
    ensures r.Ok? <==> forall k :: 0 <= k < |turns| ==> TurnLine(turns[k]).Ok?
    ensures r.Ok? ==> |r.value| == |turns| && forall k :: 0 <= k < |turns| ==> r.value[k] == TurnLine(turns[k]).value
  {
    if |turns| == 0 then Ok([])
    else
      var first := TurnLine(turns[0]);
      var rest := TurnLines(turns[1..]);
      assert forall k :: 1 <= k < |turns| ==> turns[k] == turns[1..][k - 1];
      if first.Err? then Err(first.error)
      else if rest.Err? then Err(rest.error)
      else Ok([first.value] + rest.value)
  }

  /** `transcriptToText(transcript)`: a non-array gives the empty text; otherwise the
      turn lines joined by newlines. */
  function TranscriptToText(transcript: Option<Json>): (r: Result<string>)
    ensures transcript.None? || !transcript.value.JArr? ==> r == Ok("")
    ensures transcript.Some? && transcript.value.JArr? ==>
      (r.Ok? <==> forall k :: 0 <= k < |transcript.value.items| ==> TurnLine(transcript.value.items[k]).Ok?)
  {
    if transcript.None? || !transcript.value.JArr? then Ok("")
    else
      var lines := TurnLines(transcript.value.items);
      if lines.Err? then Err(lines.error) else Ok(Text.Join(lines.value, "\n"))
  }

  /** A turn that `transcriptToText` can read: an object or primitive, not `null`, whose
      role is absent, falsy or a string. */
  predicate ReadableTurn(t: Json) {
    !t.JNull? && (var role := Prop(Some(t), "role"); !Truthy(role) || role.value.JStr?)
  }

  /** For readable turns whose lines have no newline in them, splitting the text at
      newlines gives back one line per turn, in order, each "ROLE: message". */
  lemma TranscriptLines(turns: seq<Json>)
    requires |turns| >= 1
    requires forall k :: 0 <= k < |turns| ==> ReadableTurn(turns[k]) && '\n' !in TurnLine(turns[k]).value
    ensures TranscriptToText(Some(JArr(turns))).Ok?
    ensures var text := TranscriptToText(Some(JArr(turns))).value;
      && |Text.Split(text, '\n')| == |turns|
      && forall k :: 0 <= k < |turns| ==> Text.Split(text, '\n')[k] == TurnLine(turns[k]).value
  {
    assert forall k :: 0 <= k < |turns| ==> TurnLine(turns[k]).Ok?;
    var lines := TurnLines(turns).value;
    Text.SplitJoin(lines, '\n');
  }

  const CustomHeading: string := "Инструкции (custom):\n"
  const TranscriptHeading: string := "Транскрипт:\n"
  const RawTextHeading: string := "Диалог (сырой текст):\n"
  const ExtraHeading: string := "Дополнительно:\n"

  /** `[customPrompt && ..., main, extraUserContent && ...].filter(Boolean)`. */
  function Sections(customPrompt: string, main: string, extra: string): seq<string> {
    (if customPrompt != "" then [CustomHeading + customPrompt] else [])
    + [main]
    + (if extra != "" then [ExtraHeading + extra] else [])
  }

  /** The user message: the sections joined by blank lines. */
  function UserContent(customPrompt: string, main: string, extra: string): string {
    Text.Join(Sections(customPrompt, main, extra), "\n\n")
  }

  /** The main section is always there; custom instructions come before it only when
      given, the extra content after it only when given. */
  lemma UserContentLayout(customPrompt: string, main: string, extra: string)
    ensures var u := UserContent(customPrompt, main, extra);
      && (customPrompt != "" ==> Text.StartsWith(u, CustomHeading + customPrompt + "\n\n" + main))
      && (customPrompt == "" ==> Text.StartsWith(u, main))
      && (extra != "" ==> u == (if customPrompt != "" then CustomHeading + customPrompt + "\n\n" else "")
                               + main + "\n\n" + ExtraHeading + extra)
      && (extra == "" ==> u == (if customPrompt != "" then CustomHeading + customPrompt + "\n\n" else "") + main)
  {
    var c := CustomHeading + customPrompt;
    var x := ExtraHeading + extra;
    var u := UserContent(customPrompt, main, extra);
    if customPrompt != "" && extra != "" {
      assert Sections(customPrompt, main, extra) == [c, main, x];
      assert [c, main, x][1..] == [main, x] && [main, x][1..] == [x];
      assert Text.Join([x], "\n\n") == x;
      assert Text.Join([main, x], "\n\n") == main + "\n\n" + x;
      assert u == c + "\n\n" + (main + "\n\n" + x);
      assert c + "\n\n" + (main + "\n\n" + x) == (c + "\n\n" + main) + "\n\n" + x;
    } else if customPrompt != "" {
      assert Sections(customPrompt, main, extra) == [c, main];
      assert [c, main][1..] == [main];
      assert Text.Join([main], "\n\n") == main;
      assert u == c + "\n\n" + main;
    } else if extra != "" {
      assert Sections(customPrompt, main, extra) == [main, x];
      assert [main, x][1..] == [x];
      assert Text.Join([x], "\n\n") == x;
      assert u == main + "\n\n" + x;
    } else {
      assert Sections(customPrompt, main, extra) == [main];
    }
  }

  /** `resp.choices?.[0]?.message?.content || '{}'`. */
  function ContentOrEmpty(content: Option<string>): (s: string)
    ensures s != ""
    ensures content.Some? && content.value != "" ==> s == content.value
    ensures content.None? || content.value == "" ==> s == "{}"
  {
    if content.Some? && content.value != "" then content.value else "{}"
  }

  /** `analyzeTranscript(transcript, { customPrompt, extraUserContent })`. */
  function AnalyzeTranscript(transcript: Option<Json>, customPrompt: string, extra: string, backend: Backend): (r: Result<Json>)
    ensures !backend.apiKeyConfigured ==> r == Err(NoApiKeyError)
    ensures backend.apiKeyConfigured && TranscriptToText(transcript).Err? ==> r == Err(TranscriptToText(transcript).error)
    ensures backend.apiKeyConfigured && TranscriptToText(transcript).Ok? ==>
      var request := ChatRequest(backend.model, backend.systemPrompt,
                                 UserContent(customPrompt, TranscriptHeading + TranscriptToText(transcript).value, extra),
                                 None, backend.timeoutMs);
      match backend.complete(request)
      case Failed(e) => r == Err(e)
      case Replied(content) =>
        var parsed := backend.parse(ContentOrEmpty(content));
        r == Ok(if parsed.Some? then parsed.value else EmptyObject)
  {
    if !backend.apiKeyConfigured then Err(NoApiKeyError)
    else
      var text := TranscriptToText(transcript);
      if text.Err? then Err(text.error)
      else
        var user := UserContent(customPrompt, TranscriptHeading + text.value, extra);
        var reply := backend.complete(ChatRequest(backend.model, backend.systemPrompt, user, None, backend.timeoutMs));
        if reply.Failed? then Err(reply.error)
        else
          var parsed := backend.parse(ContentOrEmpty(reply.content));
          Ok(if parsed.Some? then parsed.value else EmptyObject)
  }

  const SyntaxError: string := "SyntaxError"

  /** `analyzeRawText(text, { customPrompt, extraUserContent })`: as above with the raw
      text heading and temperature 0.2, and a parse error is thrown instead of replaced. */
  function AnalyzeRawText(text: string, customPrompt: string, extra: string, backend: Backend): (r: Result<Json>)
    ensures !backend.apiKeyConfigured ==> r == Err(NoApiKeyError)
    ensures backend.apiKeyConfigured ==>
      var request := ChatRequest(backend.model, backend.systemPrompt,
                                 UserContent(customPrompt, RawTextHeading + text, extra), Some(0.2), backend.timeoutMs);
      match backend.complete(request)
      case Failed(e) => r == Err(e)
      case Replied(content) =>
        var parsed := backend.parse(ContentOrEmpty(content));
        r == (if parsed.Some? then Ok(parsed.value) else Err(SyntaxError))
  {
    if !backend.apiKeyConfigured then Err(NoApiKeyError)
    else
      var user := UserContent(customPrompt, RawTextHeading + text, extra);
      var reply := backend.complete(ChatRequest(backend.model, backend.systemPrompt, user, Some(0.2), backend.timeoutMs));
      if reply.Failed? then Err(reply.error)
      else
        var parsed := backend.parse(ContentOrEmpty(reply.content));
        if parsed.Some? then Ok(parsed.value) else Err(SyntaxError)
  }

  /** The two entry points differ only in what they do with unparseable content: on
      the same reply, the transcript analysis answers `{}` and the raw-text analysis
      throws a `SyntaxError`. */
  lemma UnparseableContent(transcript: Option<Json>, text: string, customPrompt: string, extra: string,
                           backend: Backend, content: Option<string>)
    requires backend.apiKeyConfigured
    requires forall q :: backend.complete(q) == Replied(content)
    requires backend.parse(ContentOrEmpty(content)).None?
    requires TranscriptToText(transcript).Ok?
    ensures AnalyzeTranscript(transcript, customPrompt, extra, backend) == Ok(EmptyObject)
    ensures AnalyzeRawText(text, customPrompt, extra, backend) == Err(SyntaxError)
  {
  }

  /** A reply without content, or with empty content, is read as the text `{}`, so both
      entry points answer the empty object (given that `JSON.parse('{}')` is `{}`). */
  lemma EmptyReplyIsEmptyObject(transcript: Option<Json>, text: string, customPrompt: string, extra: string,
                                backend: Backend, content: Option<string>)
    requires backend.apiKeyConfigured
    requires forall q :: backend.complete(q) == Replied(content)
    requires content.None? || content.value == ""
    requires backend.parse("{}") == Some(EmptyObject)
    requires TranscriptToText(transcript).Ok?
    ensures AnalyzeTranscript(transcript, customPrompt, extra, backend) == Ok(EmptyObject)
    ensures AnalyzeRawText(text, customPrompt, extra, backend) == Ok(EmptyObject)
  {
  }
}

=== FILE: analyze_route.dfy ===
/** src/routes/analyze.js: analysing one event — the transcript goes to the analysis
    backend, the result is stored, the event is marked processed, and the CRM journal
    entry and the external CRM delivery are attempted without affecting the answer —
    and the two routes that call it. The rate limiter in front of the analysis is not
    modelled: calls run one after another. */
module AnalyzeRoute {
  import opened Wrappers
  import opened Js
  import Decimal
  import Store
  import Analysis
  import ExternalCrm
  import CrmWriter

  /** The note `markProcessed` stores on an analysed event. */
  const ProcessedNote: string := "analyzed by bottleneck worker"

  /** `event?.payload?.data?.transcript || []`. */
  function TranscriptOf(event: Json): (t: Option<Json>)
    ensures var given := Prop(Prop(Prop(Some(event), "payload"), "data"), "transcript");
      && (Truthy(given) ==> t == given)
      && (!Truthy(given) ==> t == Some(JArr([])))
  {
    Or(Prop(Prop(Prop(Some(event), "payload"), "data"), "transcript"), Some(JArr([])))
  }

  /** `event.id` as bound to a query parameter: a missing id is sent as NULL. */
  function EventIdParam(event: Json): Json {
    var id := Prop(Some(event), "id");
    if id.Some? then id.value else JNull
  }

  /** What `doAnalyze` answers: the stored analysis id (absent without a database) and
      the analysis result. */
  datatype Outcome = Outcome(analysisId: Option<nat>, result: Json)

  /** The services `doAnalyze` reaches besides the database: the analysis backend (whose
      `model` is `ANALYZE_MODEL || 'gpt-5'`, the name `insertAnalysis` also records),
      PostgreSQL's reading of JSON text, the external CRM with its POST outcomes, and the
      outcome of the journal write, `JSON.stringify` and the clock readings. */
  datatype Services = Services(
    backend: Analysis.Backend,
    readJson: string -> Option<Json>,
    crm: ExternalCrm.Config,
    post: (ExternalCrm.Request, nat) -> ExternalCrm.PostOutcome,
    journalFailure: Option<string>,
    stringify: Json -> string,
    now: int,
    nowIso: string)

  /** The analysis is stored when the event id is a `bigint` of an existing event and
      the `jsonb` column accepts the result. */
  predicate Storable(events: seq<Store.EventRow>, event: Json, result: Json, readJson: string -> Option<Json>) {
    var id := Store.ToBigint(EventIdParam(event));
    id.Value? && Store.HasEvent(events, id.n) && Store.JsonbValue(result, readJson).Some?
  }

  /** What storing `result` for `event` does to the tables, from the tables before
      (`events0`, `analyses0`, the next analysis id `next0`) to the tables after
      (`events1`, `analyses1`): nothing without a database or when the analysis cannot
      be stored; otherwise exactly one analysis row is added and the event is marked
      processed. */
  predicate Stored(configured: bool, events0: seq<Store.EventRow>, analyses0: seq<Store.AnalysisRow>, next0: nat,
                   events1: seq<Store.EventRow>, analyses1: seq<Store.AnalysisRow>,
                   event: Json, result: Json, s: Services)
  {
    && (!(configured && Storable(events0, event, result, s.readJson)) ==> events1 == events0 && analyses1 == analyses0)
    && (configured && Storable(events0, event, result, s.readJson) ==>
          var id := Store.ToBigint(EventIdParam(event)).n;
          && analyses1 == analyses0 + [Store.AnalysisRow(next0, id, s.backend.model,
                                                         Store.JsonbValue(result, s.readJson).value, s.now)]
          && events1 == Store.MarkAll(events0, {id}, Some(ProcessedNote), s.now))
  }

  /** The tables as `Stored` says, and the answer: no id without a database, an error
      when the analysis cannot be stored, otherwise the new row's id. */
  predicate Recorded(configured: bool, events0: seq<Store.EventRow>, analyses0: seq<Store.AnalysisRow>, next0: nat,
                     events1: seq<Store.EventRow>, analyses1: seq<Store.AnalysisRow>,
                     event: Json, result: Json, s: Services, r: Result<Outcome>)
  {
    && Stored(configured, events0, analyses0, next0, events1, analyses1, event, result, s)
    && (!configured ==> r == Ok(Outcome(None, result)))
    && (configured && !Storable(events0, event, result, s.readJson) ==> r.Err?)
    && (configured && Storable(events0, event, result, s.readJson) ==> r == Ok(Outcome(Some(next0), result)))
  }

  /** The journal after a successful `doAnalyze`: one entry more when the journal is
      enabled and the write succeeds (`appendCrmEntry` is given `event || {}` and
      `result || {}`). */
  function JournalAfter(journal: string, enabled: bool, event: Json, result: Json, s: Services): string {
    journal + (if enabled && s.journalFailure.None?
               then CrmWriter.FormatCrmEntry(CrmWriter.OrEmpty(Some(event)), CrmWriter.OrEmpty(Some(result)), s.nowIso, s.stringify)
               else "")
  }

  /** A one-element id list names exactly that id. */
  lemma IdSetSingle(x: Json)
    requires Store.ToBigint(x).Value?
    ensures Store.IdSet([x]) == Some({Store.ToBigint(x).n})
  {
    var ids := Store.IdSet([x]);
    var m := Store.ToBigint(x).n;
    assert ids.Some?;
    forall n ensures n in ids.value <==> n == m {
      if n in ids.value {
        var k :| 0 <= k < 1 && Store.ToBigint([x][k]) == Store.Value(n);
        assert k == 0;
      }
      if n == m {
        assert Store.ToBigint([x][0]) == Store.Value(n);
      }
    }
    assert ids.value == {m};
  }

  /** The database steps of `doAnalyze`: insert the analysis, then mark its event
      processed with the fixed note. */
  method Save(db: Store.Database, event: Json, result: Json, s: Services) returns (r: Result<Outcome>)
    requires db.Valid()
    modifies db`events, db`analyses, db`nextAnalysisId
    ensures db.Valid()
    ensures db.dispatches == old(db.dispatches)
    ensures Recorded(db.configured, old(db.events), old(db.analyses), old(db.nextAnalysisId),
                     db.events, db.analyses, event, result, s, r)
  {
    ghost var events0, analyses0 := db.events, db.analyses;
    ghost var storable := db.configured && Storable(events0, event, result, s.readJson);
    var idParam := EventIdParam(event);
    var saved := db.InsertAnalysis(idParam, s.backend.model, result, s.now, s.readJson);
    if saved.Err? {
      assert db.configured && !storable && db.analyses == analyses0;
      return Err(saved.error);
    }
    assert storable <==> saved.value.Some?;
    if db.configured {
      IdSetSingle(idParam);
    }
    var marked := db.MarkProcessed([idParam], Some(ProcessedNote), s.now);
    // The insert accepted the id, so the update of the same id cannot fail.
    assert marked.Ok?;
    assert !storable ==> db.events == events0;
    r := Ok(Outcome(saved.value, result));
  }

  /** The part of `doAnalyze` after the analysis: store it and mark the event, then the
      journal entry and the CRM delivery, whose outcomes are ignored. */
  method Record(db: Store.Database, journal: CrmWriter.Journal, event: Json, result: Json, s: Services)
    returns (r: Result<Outcome>)
    requires db.Valid()
    modifies db`events, db`analyses, db`nextAnalysisId, journal`content
    ensures db.Valid()
    ensures db.dispatches == old(db.dispatches)
    ensures Recorded(db.configured, old(db.events), old(db.analyses), old(db.nextAnalysisId),
                     db.events, db.analyses, event, result, s, r)
    ensures r.Err? ==> journal.content == old(journal.content)
    ensures r.Ok? ==> journal.content == JournalAfter(old(journal.content), journal.enabled, event, result, s)
  {
    r := Save(db, event, result, s);
    if r.Ok? {
      Notify(journal, event, result, s);
    }
  }

  /** The two best-effort steps of `doAnalyze`: the journal entry and the delivery to
      the external CRM. Neither outcome reaches the caller. */
  method Notify(journal: CrmWriter.Journal, event: Json, result: Json, s: Services)
    modifies journal`content
    ensures journal.content == JournalAfter(old(journal.content), journal.enabled, event, result, s)
  {
    var _ := journal.Append(Some(event), Some(result), s.nowIso, s.journalFailure, s.stringify);
    var _, _, _, _ := ExternalCrm.SendLeadAnalytics(s.crm, Some(event), Some(result), s.post);
  }

  /** `doAnalyze(event)`. A failed analysis changes nothing; a stored analysis marks the
      event processed; the journal entry and the CRM delivery neither change the answer
      nor record anything in crm_dispatches. */
  method DoAnalyze(db: Store.Database, journal: CrmWriter.Journal, event: Json, s: Services)
    returns (r: Result<Outcome>)
    requires db.Valid()
    modifies db`events, db`analyses, db`nextAnalysisId, journal`content
    ensures db.Valid()
    ensures db.dispatches == old(db.dispatches)
    ensures var a := Analysis.AnalyzeTranscript(TranscriptOf(event), "", "", s.backend);
      && (a.Err? ==> r == Err(a.error) && db.events == old(db.events) && db.analyses == old(db.analyses)
                     && journal.content == old(journal.content))
      && (a.Ok? ==> Recorded(db.configured, old(db.events), old(db.analyses), old(db.nextAnalysisId),
                             db.events, db.analyses, event, a.value, s, r))
    ensures r.Err? ==> journal.content == old(journal.content)
    ensures r.Ok? ==> journal.content == JournalAfter(old(journal.content), journal.enabled, event, r.value.result, s)
  {
    var result := Analysis.AnalyzeTranscript(TranscriptOf(event), "", "", s.backend);
    if result.Err? {
      return Err(result.error);
    }
    r := Record(db, journal, event, result.value, s);
  }

  /** The JSON answer for an outcome: node-postgres returns the `bigint` id as text,
      and an absent id is left out. */
  function OutcomeFields(o: Outcome): (m: map<string, Json>)
    ensures m.Keys == {"result"} + (if o.analysisId.Some? then {"analysis_id"} else {})
  {
    var base := map["result" := o.result];
    if o.analysisId.Some? then base["analysis_id" := JStr(Decimal.IntToDecimal(o.analysisId.value))] else base
  }

  /** An HTTP answer: status and JSON body. */
  datatype Reply = Reply(status: int, body: Json)

  function ErrorReply(status: int, error: string): Reply {
    Reply(status, JObj(map["error" := JStr(error)]))
  }

  function FailedReply(details: string): Reply {
    Reply(500, JObj(map["error" := JStr("analysis_failed"), "details" := JStr(details)]))
  }

  /** A 500 `analysis_failed` answer, whatever its details. */
  predicate AnalysisFailed(reply: Reply) {
    && reply.body.JObj? && "details" in reply.body.fields && reply.body.fields["details"].JStr?
    && reply == FailedReply(reply.body.fields["details"].s)
  }

  /** `POST /analyze` with body `{ event }`. */
  method PostAnalyze(db: Store.Database, journal: CrmWriter.Journal, body: Option<Json>, s: Services)
    returns (reply: Reply)
    requires db.Valid()
    modifies db`events, db`analyses, db`nextAnalysisId, journal`content
    ensures db.Valid()
    ensures var event := Prop(body, "event");
      && (!Truthy(Prop(event, "id")) || !Truthy(Prop(event, "payload")) ==>
            reply == ErrorReply(400, "bad_request") && db.events == old(db.events) && db.analyses == old(db.analyses))
      && (Truthy(Prop(event, "id")) && Truthy(Prop(event, "payload")) ==>
            var a := Analysis.AnalyzeTranscript(TranscriptOf(event.value), "", "", s.backend);
            && (a.Err? ==> reply == FailedReply(a.error) && db.events == old(db.events) && db.analyses == old(db.analyses))
            && (a.Ok? ==> Stored(db.configured, old(db.events), old(db.analyses), old(db.nextAnalysisId),
                                 db.events, db.analyses, event.value, a.value, s))
            && (reply.status == 200 <==>
                  a.Ok? && (db.configured ==> Storable(old(db.events), event.value, a.value, s.readJson)))
            && (reply.status == 200 ==>
                  && reply.body == JObj(OutcomeFields(Outcome(
                       if db.configured then Some(old(db.nextAnalysisId)) else None, a.value)))
                  && journal.content == JournalAfter(old(journal.content), journal.enabled, event.value, a.value, s))
            && (reply.status != 200 ==> AnalysisFailed(reply)))
    ensures reply.status != 200 ==> journal.content == old(journal.content)
    ensures reply.status in {200, 400, 500}
  {
    var event := Prop(body, "event");
    if !Truthy(Prop(event, "id")) || !Truthy(Prop(event, "payload")) {
      return ErrorReply(400, "bad_request");
    }
    var out := DoAnalyze(db, journal, event.value, s);
    if out.Err? {
      return FailedReply(out.error);
    }
    reply := Reply(200, JObj(OutcomeFields(out.value)));
  }

  /** The row `/analyze/next` picks is an unprocessed row no other unprocessed row is
      older than; none is picked only when every row is processed. */
  lemma {:induction false} NextRow(events: seq<Store.EventRow>)
    ensures var rows := Store.OldestUnprocessed(events, 1);
      && (|rows| == 0 <==> forall e :: e in events ==> e.processed)
      && (|rows| > 0 ==>
            && rows[0] in events && !rows[0].processed
            && forall e :: e in events && !e.processed ==> rows[0].eventTimestamp <= e.eventTimestamp)
  {
    var rows := Store.OldestUnprocessed(events, 1);
    Store.OldestUnprocessedMeaning(events, 1);
    var u := Store.Unprocessed(events);
    assert (exists e :: e in events && !e.processed) <==> |u| > 0 by {
      if |u| > 0 {
        assert u[0] in events && !u[0].processed;
      }
    }
    if |rows| > 0 {
      forall e | e in events && !e.processed ensures rows[0].eventTimestamp <= e.eventTimestamp {
        if e != rows[0] {
          assert e !in rows;
        }
      }
    }
  }

  /** After the update the marked row is processed. */
  lemma ProcessedAfterMark(events: seq<Store.EventRow>, row: Store.EventRow, now: int)
    requires row in events
    ensures var marked := Store.MarkAll(events, {row.id}, Some(ProcessedNote), now);
      exists i :: 0 <= i < |marked| && marked[i].id == row.id && marked[i].processed
  {
    var i :| 0 <= i < |events| && events[i] == row;
    Store.MarkAllEffect(events, {row.id}, Some(ProcessedNote), now, i);
  }

  /** What `/analyze/next` does with the row it picked, from the tables and journal
      before (`events0`, `analyses0`, `next0`, `journal0`) to those after: a failed
      analysis, or one the `jsonb` column rejects, answers 500 and leaves the tables as
      they were, the row unprocessed and the journal unchanged; otherwise one analysis
      row is added, the row is marked processed, the journal gets its entry, and the
      answer is the outcome with the row's `event_id`. */
  predicate RowAnalysed(events0: seq<Store.EventRow>, analyses0: seq<Store.AnalysisRow>, next0: nat,
                        journal0: string, enabled: bool,
                        events1: seq<Store.EventRow>, analyses1: seq<Store.AnalysisRow>, journal1: string,
                        row: Store.EventRow, s: Services, reply: Reply)
  {
    var event := Store.RowToJson(row);
    var a := Analysis.AnalyzeTranscript(TranscriptOf(event), "", "", s.backend);
    && (a.Err? ==> reply == FailedReply(a.error) && events1 == events0 && analyses1 == analyses0 && journal1 == journal0)
    && (a.Ok? ==> Stored(true, events0, analyses0, next0, events1, analyses1, event, a.value, s))
    && (reply.status == 200 <==> a.Ok? && Store.JsonbValue(a.value, s.readJson).Some?)
    && (reply.status == 200 ==>
          && reply.body == JObj(OutcomeFields(Outcome(Some(next0), a.value))["event_id" := JStr(Decimal.IntToDecimal(row.id))])
          && journal1 == JournalAfter(journal0, enabled, event, a.value, s))
    && (reply.status != 200 ==> AnalysisFailed(reply) && journal1 == journal0)
  }

  /** `doAnalyze` on a row of the table, as `/analyze/next` calls it, with the row's id
      added to a successful answer. */
  method AnalyzeRow(db: Store.Database, journal: CrmWriter.Journal, row: Store.EventRow, s: Services)
    returns (reply: Reply)
    requires db.Valid() && db.configured && row in db.events
    modifies db`events, db`analyses, db`nextAnalysisId, journal`content
    ensures db.Valid()
    ensures RowAnalysed(old(db.events), old(db.analyses), old(db.nextAnalysisId), old(journal.content), journal.enabled,
                        db.events, db.analyses, journal.content, row, s, reply)
    ensures reply.status == 200 ==>
      && reply.body.JObj? && "event_id" in reply.body.fields
      && reply.body.fields["event_id"] == JStr(Decimal.IntToDecimal(row.id))
      && exists i :: 0 <= i < |db.events| && db.events[i].id == row.id && db.events[i].processed
  {
    var event := Store.RowToJson(row);
    assert row.id <= Decimal.MaxBigint by {
      var i :| 0 <= i < |db.events| && db.events[i] == row;
    }
    Store.RowIdRoundTrip(row);
    assert Store.HasEvent(db.events, row.id);
    assert EventIdParam(event) == event.fields["id"];
    ghost var a := Analysis.AnalyzeTranscript(TranscriptOf(event), "", "", s.backend);
    assert a.Ok? ==> (Storable(db.events, event, a.value, s.readJson) <==> Store.JsonbValue(a.value, s.readJson).Some?);
    ghost var before := db.events;
    var out := DoAnalyze(db, journal, event, s);
    if out.Err? {
      return FailedReply(out.error);
    }
    ProcessedAfterMark(before, row, s.now);
    reply := Reply(200, JObj(OutcomeFields(out.value)["event_id" := event.fields["id"]]));
  }

  /** `POST /analyze/next`: analyse the oldest unprocessed event, if there is one. */
  method PostAnalyzeNext(db: Store.Database, journal: CrmWriter.Journal, s: Services)
    returns (reply: Reply, analysed: Option<Store.EventRow>)
    requires db.Valid()
    modifies db`events, db`analyses, db`nextAnalysisId, journal`content
    ensures db.Valid()
    ensures analysed.None? <==> !db.configured || forall e :: e in old(db.events) ==> e.processed
    ensures analysed.None? ==>
      && reply == Reply(200, JObj(map["message" := JStr("nothing_to_analyze")]))
      && db.events == old(db.events) && db.analyses == old(db.analyses) && db.nextAnalysisId == old(db.nextAnalysisId)
      && journal.content == old(journal.content)
    ensures analysed.Some? ==>
      var e := analysed.value;
      && e in old(db.events) && !e.processed
      && (forall other :: other in old(db.events) && !other.processed ==> e.eventTimestamp <= other.eventTimestamp)
      && RowAnalysed(old(db.events), old(db.analyses), old(db.nextAnalysisId), old(journal.content), journal.enabled,
                     db.events, db.analyses, journal.content, e, s, reply)
      && (reply.status == 200 ==>
            && reply.body.JObj? && "event_id" in reply.body.fields
            && reply.body.fields["event_id"] == JStr(Decimal.IntToDecimal(e.id))
            && exists i :: 0 <= i < |db.events| && db.events[i].id == e.id && db.events[i].processed)
    ensures reply.status in {200, 500}
  {
    NextRow(db.events);
    var rows := db.FetchUnprocessed(1);
    if |rows| == 0 {
      return Reply(200, JObj(map["message" := JStr("nothing_to_analyze")])), None;
    }
    analysed := Some(rows[0]);
    reply := AnalyzeRow(db, journal, rows[0], s);
  }
}

=== FILE: base64.dfy ===
/** UTF-8 (what `Buffer.from(text)` produces) and Base64 with padding (section 4 of
    RFC 4648, what `toString('base64')` produces). */
module Base64 {
  import opened Wrappers
  import Hex

  type byte = Hex.byte

  /** The UTF-8 bytes of one Unicode scalar value. */
  function Utf8Char(c: char): (r: seq<byte>)
    ensures 1 <= |r| <= 4
  {
    var n := c as int;
    if n < 0x80 then [n]
    else if n < 0x800 then [0xC0 + n / 64, 0x80 + n % 64]
    else if n < 0x10000 then [0xE0 + n / 4096, 0x80 + (n / 64) % 64, 0x80 + n % 64]
    else [0xF0 + n / 262144, 0x80 + (n / 4096) % 64, 0x80 + (n / 64) % 64, 0x80 + n % 64]
  }

  function Utf8(s: string): (r: seq<byte>)
    ensures |s| <= |r| <= 4 * |s|
  {
    if |s| == 0 then [] else Utf8Char(s[0]) + Utf8(s[1..])
  }

  /** The Base64 alphabet: A-Z, a-z, 0-9, '+', '/'. */
  function Sextet(v: nat): (c: char)
    requires v < 64
  {
    if v < 26 then ('A' as int + v) as char
    else if v < 52 then ('a' as int + v - 26) as char
    else if v < 62 then ('0' as int + v - 52) as char
    else if v == 62 then '+'
    else '/'
  }

  function SextetValue(c: char): (r: Option<nat>)
    ensures r.Some? ==> r.value < 64
  {
    if 'A' <= c <= 'Z' then Some(c as int - 'A' as int)
    else if 'a' <= c <= 'z' then Some(c as int - 'a' as int + 26)
    else if '0' <= c <= '9' then Some(c as int - '0' as int + 52)
    else if c == '+' then Some(62)
    else if c == '/' then Some(63)
    else None
  }

  lemma SextetRoundTrip(v: nat)
    requires v < 64
    ensures SextetValue(Sextet(v)) == Some(v)
  {
  }

  /** Every three bytes become four characters; a final group of one or two bytes is
      padded with '='. */
  function Encode(b: seq<byte>): (s: string)
    ensures |s| == 4 * ((|b| + 2) / 3)
  {
    if |b| == 0 then ""
    else if |b| == 1 then
      [Sextet(b[0] / 4), Sextet((b[0] % 4) * 16), '=', '=']
    else if |b| == 2 then
      [Sextet(b[0] / 4), Sextet((b[0] % 4) * 16 + b[1] / 16), Sextet((b[1] % 16) * 4), '=']
    else
      [Sextet(b[0] / 4), Sextet((b[0] % 4) * 16 + b[1] / 16),
       Sextet((b[1] % 16) * 4 + b[2] / 64), Sextet(b[2] % 64)] + Encode(b[3..])
  }

  /** The three bytes a group of four sextets stands for. */
  function Bytes3(v0: nat, v1: nat, v2: nat, v3: nat): seq<byte>
    requires v0 < 64 && v1 < 64 && v2 < 64 && v3 < 64
  {
    [v0 * 4 + v1 / 16, (v1 % 16) * 16 + v2 / 4, (v2 % 4) * 64 + v3]
  }

  /** Strict decoding of padded Base64; `None` for anything the encoder cannot write. */
  function Decode(s: string): (r: Option<seq<byte>>)
  {
    if |s| == 0 then Some([])
    else if |s| < 4 then None
    else
      var v0, v1 := SextetValue(s[0]), SextetValue(s[1]);
      if v0.None? || v1.None? then None
      else if |s| == 4 && s[2] == '=' && s[3] == '=' then
        if v1.value % 16 == 0 then Some([v0.value * 4 + v1.value / 16]) else None
      else
        var v2 := SextetValue(s[2]);
        if v2.None? then None
        else if |s| == 4 && s[3] == '=' then
          if v2.value % 4 == 0 then Some(Bytes3(v0.value, v1.value, v2.value, 0)[..2]) else None
        else
          var v3 := SextetValue(s[3]);
          if v3.None? then None
          else
            var rest := Decode(s[4..]);
            if rest.None? then None else Some(Bytes3(v0.value, v1.value, v2.value, v3.value) + rest.value)
  }

  lemma OneByte(b0: byte)
    ensures Decode(Encode([b0])) == Some([b0])
  {
    var v0, v1 := b0 / 4, (b0 % 4) * 16;
    SextetRoundTrip(v0);
    SextetRoundTrip(v1);
    var s := [Sextet(v0), Sextet(v1), '=', '='];
    assert Encode([b0]) == s;
    assert v1 % 16 == 0 && v0 * 4 + v1 / 16 == b0;
  }

  lemma TwoBytes(b0: byte, b1: byte)
    ensures Decode(Encode([b0, b1])) == Some([b0, b1])
  {
    var v0, v1, v2 := b0 / 4, (b0 % 4) * 16 + b1 / 16, (b1 % 16) * 4;
    SextetRoundTrip(v0);
    SextetRoundTrip(v1);
    SextetRoundTrip(v2);
    var s := [Sextet(v0), Sextet(v1), Sextet(v2), '='];
    assert Encode([b0, b1]) == s;
    assert s[2] != '=' && s[3] == '=';
    assert Decode(s) == Some(Bytes3(v0, v1, v2, 0)[..2]);
    assert v2 % 4 == 0;
    assert v0 * 4 + v1 / 16 == b0;
    assert (v1 % 16) * 16 + v2 / 4 == b1;
    assert Bytes3(v0, v1, v2, 0)[..2] == [b0, b1];
  }

  /** The four characters a full group of three bytes is written as, and the bytes they
      decode to. */
  lemma ThreeBytes(b0: byte, b1: byte, b2: byte)
    ensures var v0, v1, v2, v3 := b0 / 4, (b0 % 4) * 16 + b1 / 16, (b1 % 16) * 4 + b2 / 64, b2 % 64;
      && SextetValue(Sextet(v0)) == Some(v0) && SextetValue(Sextet(v1)) == Some(v1)
      && SextetValue(Sextet(v2)) == Some(v2) && SextetValue(Sextet(v3)) == Some(v3)
      && Bytes3(v0, v1, v2, v3) == [b0, b1, b2]
  {
    var v0, v1, v2, v3 := b0 / 4, (b0 % 4) * 16 + b1 / 16, (b1 % 16) * 4 + b2 / 64, b2 % 64;
    SextetRoundTrip(v0);
    SextetRoundTrip(v1);
    SextetRoundTrip(v2);
    SextetRoundTrip(v3);
    assert v0 * 4 + v1 / 16 == b0;
    assert (v1 % 16) * 16 + v2 / 4 == b1;
    assert (v2 % 4) * 64 + v3 == b2;
  }

  /** A full group of four sextets in front of `rest` decodes to its three bytes followed
      by whatever `rest` decodes to. */
  lemma DecodeGroup(v0: nat, v1: nat, v2: nat, v3: nat, rest: string)
    requires v0 < 64 && v1 < 64 && v2 < 64 && v3 < 64
    ensures var d := Decode([Sextet(v0), Sextet(v1), Sextet(v2), Sextet(v3)] + rest);
      && (Decode(rest).None? ==> d.None?)
      && (Decode(rest).Some? ==> d == Some(Bytes3(v0, v1, v2, v3) + Decode(rest).value))
  {
    SextetRoundTrip(v0);
    SextetRoundTrip(v1);
    SextetRoundTrip(v2);
    SextetRoundTrip(v3);
    var s := [Sextet(v0), Sextet(v1), Sextet(v2), Sextet(v3)] + rest;
    assert s[0] == Sextet(v0) && s[1] == Sextet(v1) && s[2] == Sextet(v2) && s[3] == Sextet(v3);
    assert s[4..] == rest;
  }

  /** Decoding what the encoder wrote gives back the bytes. */
  lemma {:induction false} DecodeEncode(b: seq<byte>)
    ensures Decode(Encode(b)) == Some(b)
  {
    if |b| == 1 {
      assert b == [b[0]];
      OneByte(b[0]);
    } else if |b| == 2 {
      assert b == [b[0], b[1]];
      TwoBytes(b[0], b[1]);
    } else if |b| >= 3 {
      var v0, v1, v2, v3 := b[0] / 4, (b[0] % 4) * 16 + b[1] / 16, (b[1] % 16) * 4 + b[2] / 64, b[2] % 64;
      ThreeBytes(b[0], b[1], b[2]);
      DecodeGroup(v0, v1, v2, v3, Encode(b[3..]));
      DecodeEncode(b[3..]);
      assert [b[0], b[1], b[2]] + b[3..] == b;
    }
  }
}

=== FILE: crm_writer.dfy ===
/** src/crmWriter.js: a markdown entry per analysed event, appended to a local CRM
    journal file. The clock reading (`new Date().toISOString()`), `JSON.stringify` and
    the outcome of the file system calls are parameters; the file is the journal's
    `content`. */
module CrmWriter {
  import opened Wrappers
  import opened Js
  import Text

  /** `CRM_MD_ENABLED`, read as `(env || 'true') === 'true'`: on unless set to
      something other than "true". */
  function Enabled(env: Option<string>): (b: bool)
    ensures env.None? || env == Some("") || env == Some("true") <==> b
  {
    var v := if env.None? || env.value == "" then "true" else env.value;
    v == "true"
  }

  /** `safe(val, fallback)`: the fallback for null and undefined, the JSON text of
      arrays and objects, `String(val)` for the rest. */
  function Safe(v: Option<Json>, fallback: string, stringify: Json -> string): (r: string)
    ensures Nullish(v) ==> r == fallback
    ensures v.Some? && (v.value.JArr? || v.value.JObj?) ==> r == stringify(v.value)
    ensures v.Some? && v.value.JStr? ==> r == v.value.s
    ensures v.Some? && v.value.JBool? ==> r == (if v.value.b then "true" else "false")
    ensures v.Some? && v.value.JNum? ==> r == ToText(v.value)
  {
    if Nullish(v) then fallback
    else if v.value.JArr? || v.value.JObj? then stringify(v.value)
    else ToText(v.value)
  }

  /** The entry's heading line, after the two newlines that open the entry. */
  function HeadingLine(eventRow: Json, nowIso: string, stringify: Json -> string): string {
    "## Запись аналитики " + nowIso + " (event_id: " + Safe(Prop(Some(eventRow), "id"), "", stringify) + ")"
  }

  /** The bullet lines of the entry, in their fixed order; missing values read "n/a". */
  function Bullets(eventRow: Json, analysis: Json, stringify: Json -> string): (b: seq<string>)
    ensures |b| == 9
  {
    var e, a := Some(eventRow), Some(analysis);
    [ "- Агент: " + Safe(Prop(e, "agent_id"), "n/a", stringify),
      "- Диалог: " + Safe(Prop(e, "conversation_id"), "n/a", stringify),
      "- Источник: ElevenLabs Webhook, статус: " + Safe(Prop(e, "status"), "n/a", stringify),
      "- Тема: " + Safe(Prop(a, "topic"), "n/a", stringify),
      "- Намерение: " + Safe(Prop(a, "intent"), "n/a", stringify),
      "- Качество ответа агента (1-5): " + Safe(Prop(a, "quality"), "n/a", stringify),
      "- Итог: " + Safe(Prop(a, "outcome"), "n/a", stringify),
      "- Краткий итог: " + Safe(Prop(a, "summary_ru"), "n/a", stringify),
      "- Рекомендации: " + Safe(Prop(a, "recommendations"), "n/a", stringify) ]
  }

  /** `formatCrmEntry(eventRow, analysisResult)`: the heading (opened by a blank line),
      an empty line and the bullets, joined by newlines. Reading a property of `null`
      throws, so both arguments must be other values. Whatever the values, the entry
      opens with a blank line and then its heading, so consecutive entries in the
      journal are separated. */
  function FormatCrmEntry(eventRow: Json, analysis: Json, nowIso: string, stringify: Json -> string): (entry: string)
    requires !eventRow.JNull? && !analysis.JNull?
    ensures Text.StartsWith(entry, "\n\n" + HeadingLine(eventRow, nowIso, stringify))
  {
    var h := HeadingLine(eventRow, nowIso, stringify);
    var rest := [""] + Bullets(eventRow, analysis, stringify);
    assert ["\n\n" + h, ""] + Bullets(eventRow, analysis, stringify) == ["\n\n" + h] + rest;
    assert (["\n\n" + h] + rest)[1..] == rest;
    Text.Join(["\n\n" + h] + rest, "\n")
  }

  /** Joining after two empty parts puts two newlines in front. */
  lemma JoinTwoEmpty(rest: seq<string>, first: string)
    ensures Text.Join(["", "", first] + rest, "\n") == "\n\n" + Text.Join([first] + rest, "\n")
  {
    var l := ["", "", first] + rest;
    assert l[1..] == ["", first] + rest;
    assert l[1..][1..] == [first] + rest;
  }

  /** Joining with the first part prefixed is prefixing the join. */
  lemma JoinPrefixFirst(p: string, first: string, rest: seq<string>)
    ensures Text.Join([p + first] + rest, "\n") == p + Text.Join([first] + rest, "\n")
  {
    if |rest| > 0 {
      assert ([p + first] + rest)[1..] == rest;
      assert ([first] + rest)[1..] == rest;
    }
  }

  /** When no value contains a newline, the entry is, line by line: two empty lines, the
      heading, an empty line and the nine bullets. */
  lemma EntryLines(eventRow: Json, analysis: Json, nowIso: string, stringify: Json -> string)
    requires !eventRow.JNull? && !analysis.JNull?
    requires '\n' !in HeadingLine(eventRow, nowIso, stringify)
    requires forall k :: 0 <= k < 9 ==> '\n' !in Bullets(eventRow, analysis, stringify)[k]
    ensures Text.Split(FormatCrmEntry(eventRow, analysis, nowIso, stringify), '\n')
            == ["", "", HeadingLine(eventRow, nowIso, stringify), ""] + Bullets(eventRow, analysis, stringify)
  {
    var h := HeadingLine(eventRow, nowIso, stringify);
    var b := Bullets(eventRow, analysis, stringify);
    var rest := [""] + b;
    assert ["\n\n" + h, ""] + b == ["\n\n" + h] + rest;
    assert ["", "", h, ""] + b == ["", "", h] + rest;
    JoinPrefixFirst("\n\n", h, rest);
    JoinTwoEmpty(rest, h);
    Text.SplitJoin(["", "", h, ""] + b, '\n');
  }

  /** `x || {}`. */
  function OrEmpty(v: Option<Json>): (r: Json)
    ensures !r.JNull?
    ensures Truthy(v) ==> r == v.value
  {
    if Truthy(v) then v.value else EmptyObject
  }

  datatype WriteResult = Disabled | Written(path: string) | WriteFailed(error: string)

  /** The journal file `CRM_MD_PATH` and what it holds. */
  class Journal {
    const enabled: bool
    const path: string
    var content: string

    constructor (enabled: bool, path: string, content: string)
      ensures this.enabled == enabled && this.path == path && this.content == content
    {
      this.enabled := enabled;
      this.path := path;
      this.content := content;
    }

    /** `appendCrmEntry(eventRow, analysisResult)`. `failure` is the text of the error
        creating the directory or appending raised, if one did. It never throws: a
        failure is reported and leaves the journal as it was. */
    method Append(eventRow: Option<Json>, analysis: Option<Json>, nowIso: string, failure: Option<string>,
                  stringify: Json -> string)
      returns (r: WriteResult)
      modifies this`content
      ensures !enabled ==> r == Disabled && content == old(content)
      ensures enabled && failure.Some? ==> r == WriteFailed(failure.value) && content == old(content)
      ensures enabled && failure.None? ==>
        && r == Written(path)
        && content == old(content) + FormatCrmEntry(OrEmpty(eventRow), OrEmpty(analysis), nowIso, stringify)
    {
      if !enabled {
        return Disabled;
      }
      var entry := FormatCrmEntry(OrEmpty(eventRow), OrEmpty(analysis), nowIso, stringify);
      if failure.Some? {
        return WriteFailed(failure.value);
      }
      content := content + entry;
      r := Written(path);
    }
  }
}

=== FILE: decimal.dfy ===
/** Decimal integers as text: JavaScript's `String(n)` for integers, its `parseInt(s, 10)`,
    and PostgreSQL's reading of a `bigint` parameter given as text. */
module Decimal {
  import opened Wrappers
  import Text

  predicate IsDigit(c: char) { '0' <= c <= '9' }

  predicate AllDigits(s: string) {
    forall i :: 0 <= i < |s| ==> IsDigit(s[i])
  }

  function DigitValue(c: char): nat
    requires IsDigit(c)
  {
    c as int - '0' as int
  }

  function DigitChar(d: nat): (c: char)
    requires d < 10
    ensures IsDigit(c) && DigitValue(c) == d
  {
    ('0' as int + d) as char
  }

  /** The value of a string of decimal digits, most significant first. */
  function DigitsValue(s: string): nat
    requires AllDigits(s)
  {
    if |s| == 0 then 0 else 10 * DigitsValue(s[..|s| - 1]) + DigitValue(s[|s| - 1])
  }

  /** The shortest decimal digits of `n` (no leading zeros). */
  function NatToDigits(n: nat): (s: string)
    ensures |s| >= 1 && AllDigits(s)
    ensures |s| > 1 ==> s[0] != '0'
  {
    if n < 10 then [DigitChar(n)] else NatToDigits(n / 10) + [DigitChar(n % 10)]
  }

  /** `String(n)` for an integer `n`. */
  function IntToDecimal(n: int): string {
    if n < 0 then "-" + NatToDigits(-n) else NatToDigits(n)
  }

  lemma {:induction false} DigitsValueOfNatToDigits(n: nat)
    ensures DigitsValue(NatToDigits(n)) == n
  {
    if n >= 10 {
      var s := NatToDigits(n);
      assert s[..|s| - 1] == NatToDigits(n / 10);
      DigitsValueOfNatToDigits(n / 10);
    }
  }

  /** How many characters at the start of `s` are digits. */
  function DigitPrefixLength(s: string): (k: nat)
    ensures k <= |s| && AllDigits(s[..k])
    ensures k < |s| ==> !IsDigit(s[k])
  {
    if |s| > 0 && IsDigit(s[0]) then
      var k := 1 + DigitPrefixLength(s[1..]);
      assert forall i :: 1 <= i < k ==> s[..k][i] == s[1..][..k - 1][i - 1];
      k
    else 0
  }

  lemma {:induction false} DigitPrefixOfDigits(s: string)
    requires AllDigits(s)
    ensures DigitPrefixLength(s) == |s|
  {
    if |s| > 0 {
      DigitPrefixOfDigits(s[1..]);
    }
  }

  /** `parseInt(s, 10)`: skip leading white space, an optional sign, then the longest run
      of digits; `None` (NaN) when there is no digit there. Characters after the digits
      are ignored. */
  function ParseInt(s: string): (r: Option<int>)
  {
    var t := Text.TrimStart(s);
    var negative := |t| > 0 && t[0] == '-';
    var rest := if |t| > 0 && (t[0] == '-' || t[0] == '+') then t[1..] else t;
    var k := DigitPrefixLength(rest);
    if k == 0 then None
    else
      var v: int := DigitsValue(rest[..k]);
      Some(if negative then -v else v)
  }

  /** `parseInt` reads a digit string as its value, leading zeros included. */
  lemma ParseIntOfDigits(s: string)
    requires |s| >= 1 && AllDigits(s)
    ensures ParseInt(s) == Some(DigitsValue(s))
  {
    Text.TrimStartUnchanged(s);
    DigitPrefixOfDigits(s);
    assert s[..|s|] == s;
  }

  /** `parseInt(String(n), 10) == n` for every integer. */
  lemma ParseIntOfDecimal(n: int)
    ensures ParseInt(IntToDecimal(n)) == Some(n)
  {
    var d := NatToDigits(if n < 0 then -n else n);
    DigitsValueOfNatToDigits(if n < 0 then -n else n);
    DigitPrefixOfDigits(d);
    assert d[..|d|] == d;
    if n < 0 {
      var s := "-" + d;
      Text.TrimStartUnchanged(s);
      assert s[1..] == d;
    } else {
      Text.TrimStartUnchanged(d);
    }
  }

  const MinBigint: int := -0x8000_0000_0000_0000
  const MaxBigint: int := 0x7FFF_FFFF_FFFF_FFFF

  /** The white space PostgreSQL's integer input skips around the number (C `isspace`). */
  predicate IsCSpace(c: char) {
    c == ' ' || c == '\t' || c == '\n' || c == '\U{000B}' || c == '\U{000C}' || c == '\r'
  }

  predicate AllCSpace(s: string) {
    forall i :: 0 <= i < |s| ==> IsCSpace(s[i])
  }

  function SkipLeadingSpace(s: string): (r: string)
    ensures |r| <= |s|
    ensures r == [] || !IsCSpace(r[0])
  {
    if |s| > 0 && IsCSpace(s[0]) then SkipLeadingSpace(s[1..]) else s
  }

  function SkipTrailingSpace(s: string): (r: string)
    ensures |r| <= |s|
    ensures r == [] || !IsCSpace(r[|r| - 1])
  {
    if |s| > 0 && IsCSpace(s[|s| - 1]) then SkipTrailingSpace(s[..|s| - 1]) else s
  }

  /** PostgreSQL's reading of a text parameter as `bigint`: white space, an optional
      sign, one or more digits and white space, within the 64-bit range; `None` is the
      "invalid input" or "out of range" error. */
  function BigintFromText(s: string): (r: Option<int>)
    ensures r.Some? ==> MinBigint <= r.value <= MaxBigint
  {
    SignedDigits(SkipTrailingSpace(SkipLeadingSpace(s)))
  }

  /** The number once the white space is skipped: an optional sign and one or more
      digits, within the 64-bit range. */
  function SignedDigits(t: string): (r: Option<int>)
    ensures r.Some? ==> MinBigint <= r.value <= MaxBigint
  {
    var rest := if |t| > 0 && (t[0] == '-' || t[0] == '+') then t[1..] else t;
    if |rest| == 0 || !AllDigits(rest) then None
    else
      var m: int := DigitsValue(rest);
      var v := if |t| > 0 && t[0] == '-' then -m else m;
      if MinBigint <= v <= MaxBigint then Some(v) else None
  }

  lemma {:induction false} LeadingSpaceSkipped(pre: string, s: string)
    requires AllCSpace(pre) && (s == [] || !IsCSpace(s[0]))
    ensures SkipLeadingSpace(pre + s) == s
  {
    if |pre| > 0 {
      assert (pre + s)[1..] == pre[1..] + s;
      LeadingSpaceSkipped(pre[1..], s);
    } else {
      assert pre + s == s;
    }
  }

  lemma {:induction false} TrailingSpaceSkipped(s: string, post: string)
    requires AllCSpace(post) && (s == [] || !IsCSpace(s[|s| - 1]))
    ensures SkipTrailingSpace(s + post) == s
  {
    if |post| > 0 {
      assert (s + post)[..|s + post| - 1] == s + post[..|post| - 1];
      TrailingSpaceSkipped(s, post[..|post| - 1]);
    } else {
      assert s + post == s;
    }
  }

  /** A text that neither starts nor ends with white space has none to skip. */
  lemma NoSpaceToSkip(s: string)
    requires s != [] && !IsCSpace(s[0]) && !IsCSpace(s[|s| - 1])
    ensures SkipTrailingSpace(SkipLeadingSpace(s)) == s
  {
    LeadingSpaceSkipped("", s);
    TrailingSpaceSkipped(s, "");
    assert "" + s == s && s + "" == s;
  }

  /** `String(n)` starts with a sign or a digit and ends with a digit. */
  lemma DecimalUnpadded(n: int)
    ensures var t := IntToDecimal(n);
      t != [] && !IsCSpace(t[0]) && !IsCSpace(t[|t| - 1]) && SkipTrailingSpace(SkipLeadingSpace(t)) == t
  {
    var d := NatToDigits(if n < 0 then -n else n);
    var t := IntToDecimal(n);
    assert t[|t| - 1] == d[|d| - 1];
    assert IsDigit(d[0]);
    NoSpaceToSkip(t);
  }

  /** White space around a number does not change how PostgreSQL reads it. */
  lemma SurroundingSpaceIgnored(pre: string, s: string, post: string)
    requires AllCSpace(pre) && AllCSpace(post)
    requires s != [] && !IsCSpace(s[0]) && !IsCSpace(s[|s| - 1])
    ensures BigintFromText(pre + s + post) == BigintFromText(s)
  {
    assert pre + s + post == pre + (s + post);
    LeadingSpaceSkipped(pre, s + post);
    TrailingSpaceSkipped(s, post);
    NoSpaceToSkip(s);
  }

  /** A 64-bit integer written by `String(n)` reads back as `n`. */
  lemma BigintFromDecimal(n: int)
    requires MinBigint <= n <= MaxBigint
    ensures BigintFromText(IntToDecimal(n)) == Some(n)
  {
    DecimalUnpadded(n);
    assert BigintFromText(IntToDecimal(n)) == SignedDigits(IntToDecimal(n));
    DigitsValueOfNatToDigits(if n < 0 then -n else n);
    if n < 0 {
      assert ("-" + NatToDigits(-n))[1..] == NatToDigits(-n);
    }
  }

  /** A 64-bit integer's decimal text padded with white space reads back as `n`, as
      `' 5 '::bigint` is 5. */
  lemma BigintFromPaddedDecimal(pre: string, n: int, post: string)
    requires MinBigint <= n <= MaxBigint
    requires AllCSpace(pre) && AllCSpace(post)
    ensures BigintFromText(pre + IntToDecimal(n) + post) == Some(n)
  {
    DecimalUnpadded(n);
    SurroundingSpaceIgnored(pre, IntToDecimal(n), post);
    BigintFromDecimal(n);
  }
}

=== FILE: events_route.dfy ===
/** src/routes/events.js: the read-only event listing with pagination and filters, and
    the single-event view. The SQL the route sends is evaluated here over the tables of
    `Store.Database`; `new Date(iso).getTime()` is the parameter `parseDate` (`None` for
    an invalid date). */
module EventsRoute {
  import opened Wrappers
  import opened Js
  import Decimal
  import Text
  import opened Store

  // ---- page, limit, offset ----

  /** The text `parseInt` reads for an optional query value with a default. */
  function QueryText(v: Option<string>, default: string): string {
    if v.None? || v.value == "" then default else v.value
  }

  /** `Math.max(parseInt(req.query.page || '1', 10), 1)`; `None` is NaN. */
  function PageNumber(page: Option<string>): (r: Option<int>)
    ensures r.Some? ==> r.value >= 1
    ensures page.None? || page == Some("") ==> r == Some(1)
    ensures page.Some? && page.value != "" ==>
      var p := Decimal.ParseInt(page.value);
      && (r.None? <==> p.None?)
      && (p.Some? && p.value >= 1 ==> r == p)
      && (p.Some? && p.value < 1 ==> r == Some(1))
  {
    var p := Decimal.ParseInt(QueryText(page, "1"));
    if page.None? || page == Some("") then
      Decimal.ParseIntOfDecimal(1);
      assert Decimal.IntToDecimal(1) == "1";
      Some(1)
    else if p.None? then None
    else Some(if p.value < 1 then 1 else p.value)
  }

  /** `Math.min(Math.max(parseInt(req.query.limit || '20', 10), 1), 100)`. */
  function PageSize(limit: Option<string>): (r: Option<int>)
    ensures r.Some? ==> 1 <= r.value <= 100
    ensures limit.None? || limit == Some("") ==> r == Some(20)
    ensures limit.Some? && limit.value != "" ==>
      var l := Decimal.ParseInt(limit.value);
      && (r.None? <==> l.None?)
      && (l.Some? && 1 <= l.value <= 100 ==> r == l)
      && (l.Some? && l.value < 1 ==> r == Some(1))
      && (l.Some? && l.value > 100 ==> r == Some(100))
  {
    var l := Decimal.ParseInt(QueryText(limit, "20"));
    if limit.None? || limit == Some("") then
      Decimal.ParseIntOfDecimal(20);
      assert Decimal.IntToDecimal(20) == "20";
      Some(20)
    else if l.None? then None
    else Some(if l.value < 1 then 1 else if l.value > 100 then 100 else l.value)
  }

  /** `Math.ceil(total / limit)`, or 0 for no rows. */
  function TotalPages(total: nat, limit: int): (pages: nat)
    requires limit >= 1
  {
    if total == 0 then 0 else (total + limit - 1) / limit
  }

  /** The pages cover the rows exactly: every row is on a page and the last page is
      not empty. */
  lemma TotalPagesBounds(total: nat, limit: int)
    requires limit >= 1
    ensures var pages := TotalPages(total, limit);
      && (total == 0 <==> pages == 0)
      && total <= pages * limit
      && (pages > 0 ==> (pages - 1) * limit < total)
  {
    if total > 0 {
      var pages := (total + limit - 1) / limit;
      var rem := (total + limit - 1) % limit;
      assert total + limit - 1 == pages * limit + rem;
      assert pages >= 1;
    }
  }

  // ---- filters and placeholders ----

  /** `toEpochSeconds(iso)` for a truthy query value: whole seconds, rounded down. */
  function EpochSeconds(v: Option<string>, parseDate: string -> Option<int>): (r: Option<int>)
    ensures v.None? || v.value == "" ==> r.None?
    ensures r.Some? ==> v.Some? && parseDate(v.value).Some?
    ensures r.Some? ==> r.value * 1000 <= parseDate(v.value).value < r.value * 1000 + 1000
  {
    if v.None? || v.value == "" then None
    else
      var ms := parseDate(v.value);
      if ms.None? then None else Some(ms.value / 1000)
  }

  datatype Filter = From(seconds: int) | To(seconds: int) | Agent(agentId: string)

  datatype Param = PInt(n: int) | PText(s: string)

  /** The filters in effect, in the order the route adds them. A bound of 0 seconds is
      falsy and adds no filter. */
  function ActiveFilters(dateFrom: Option<int>, dateTo: Option<int>, agentId: Option<string>): (fs: seq<Filter>)
    ensures |fs| <= 3
  {
    (if dateFrom.Some? && dateFrom.value != 0 then [From(dateFrom.value)] else [])
    + (if dateTo.Some? && dateTo.value != 0 then [To(dateTo.value)] else [])
    + (if agentId.Some? && agentId.value != "" then [Agent(agentId.value)] else [])
  }

  /** The value bound for a filter. */
  function FilterParam(f: Filter): Param {
    match f
    case From(t) => PInt(t)
    case To(t) => PInt(t)
    case Agent(a) => PText(a)
  }

  /** `$n` in the SQL text. */
  function Placeholder(n: nat): string {
    "$" + Decimal.IntToDecimal(n)
  }

  /** The condition text for a filter whose value is parameter number `n`. */
  function Condition(f: Filter, n: nat): string {
    Column(f) + Placeholder(n)
  }

  function Column(f: Filter): string {
    match f
    case From(_) => "e.event_timestamp >= "
    case To(_) => "e.event_timestamp <= "
    case Agent(_) => "e.agent_id = "
  }

  /** Every condition ends with the placeholder of its own value. */
  lemma ConditionEndsWithPlaceholder(f: Filter, n: nat)
    ensures var c := Condition(f, n); |c| >= |Placeholder(n)| && c[|c| - |Placeholder(n)|..] == Placeholder(n)
  {
    assert (Column(f) + Placeholder(n))[|Column(f)|..] == Placeholder(n);
  }

  /** Whether a row passes a filter; a NULL agent id equals nothing. */
  predicate Satisfies(e: EventRow, f: Filter) {
    match f
    case From(t) => e.eventTimestamp >= t
    case To(t) => e.eventTimestamp <= t
    case Agent(a) => e.agentId == Some(a)
  }

  /** The conditions and values built so far correspond to the filters `fs`: the k-th
      condition names placeholder k+1 and the k-th value is its filter's. */
  ghost predicate Built(conditions: seq<string>, params: seq<Param>, fs: seq<Filter>) {
    && |conditions| == |params| == |fs|
    && forall k :: 0 <= k < |fs| ==> conditions[k] == Condition(fs[k], k + 1) && params[k] == FilterParam(fs[k])
  }

  /** `params.push(value)` followed by `where.push(condition)`, the condition naming the
      new length as its placeholder: the correspondence grows by one filter. */
  method Push(conditions: seq<string>, params: seq<Param>, ghost fs: seq<Filter>, f: Filter)
    returns (conditions': seq<string>, params': seq<Param>)
    requires Built(conditions, params, fs)
    ensures Built(conditions', params', fs + [f])
  {
    params' := params + [FilterParam(f)];
    conditions' := conditions + [Condition(f, |params'|)];
  }

  /** The `where` clause the route builds: the conditions, their text and the values,
      one placeholder per value numbered by its position. */
  method BuildWhere(dateFrom: Option<int>, dateTo: Option<int>, agentId: Option<string>)
    returns (conditions: seq<string>, whereSql: string, params: seq<Param>)
    ensures Built(conditions, params, ActiveFilters(dateFrom, dateTo, agentId))
    ensures whereSql == (if |conditions| == 0 then "" else "where " + Text.Join(conditions, " and "))
  {
    conditions, params := [], [];
    ghost var from := if dateFrom.Some? && dateFrom.value != 0 then [From(dateFrom.value)] else [];
    ghost var to := if dateTo.Some? && dateTo.value != 0 then [To(dateTo.value)] else [];
    ghost var agent := if agentId.Some? && agentId.value != "" then [Agent(agentId.value)] else [];
    if dateFrom.Some? && dateFrom.value != 0 {
      conditions, params := Push(conditions, params, [], From(dateFrom.value));
    }
    assert Built(conditions, params, from);
    if dateTo.Some? && dateTo.value != 0 {
      conditions, params := Push(conditions, params, from, To(dateTo.value));
    }
    assert Built(conditions, params, from + to);
    if agentId.Some? && agentId.value != "" {
      conditions, params := Push(conditions, params, from + to, Agent(agentId.value));
    }
    assert Built(conditions, params, from + to + agent);
    whereSql := if |conditions| > 0 then "where " + Text.Join(conditions, " and ") else "";
  }

  /** The listing query's values: the filter values, then `limit` and `offset`, whose
      placeholder numbers are their positions. */
  method AddPaging(params: seq<Param>, limit: int, offset: int)
    returns (listParams: seq<Param>, limitIdx: nat, offsetIdx: nat)
    ensures listParams == params + [PInt(limit), PInt(offset)]
    ensures limitIdx == |params| + 1 && offsetIdx == |params| + 2
    ensures listParams[limitIdx - 1] == PInt(limit) && listParams[offsetIdx - 1] == PInt(offset)
  {
    listParams := params + [PInt(limit)];
    limitIdx := |listParams|;
    listParams := listParams + [PInt(offset)];
    offsetIdx := |listParams|;
  }

  // ---- the listing query ----

  /** The rows that pass every filter, in table order. */
  function Selected(events: seq<EventRow>, fs: seq<Filter>): (r: seq<EventRow>)
    ensures forall e :: e in r <==> e in events && forall f :: f in fs ==> Satisfies(e, f)
    ensures |r| <= |events|
  {
    if |events| == 0 then []
    else
      var rest := Selected(events[1..], fs);
      assert forall e :: e in events <==> e == events[0] || e in events[1..];
      if forall f :: f in fs ==> Satisfies(events[0], f) then [events[0]] + rest else rest
  }

  function Reverse(s: seq<EventRow>): (r: seq<EventRow>)
    ensures |r| == |s| && forall i :: 0 <= i < |s| ==> r[i] == s[|s| - 1 - i]
  {
    if |s| == 0 then [] else [s[|s| - 1]] + Reverse(s[..|s| - 1])
  }

  lemma ReverseMembers(s: seq<EventRow>)
    ensures forall e :: e in Reverse(s) <==> e in s
  {
    var r := Reverse(s);
    forall e ensures e in r <==> e in s {
      if e in s {
        var i :| 0 <= i < |s| && s[i] == e;
        assert r[|s| - 1 - i] == e;
      }
    }
  }

  ghost predicate NewestFirst(rows: seq<EventRow>) {
    forall i, j :: 0 <= i < j < |rows| ==> rows[i].eventTimestamp >= rows[j].eventTimestamp
  }

  /** `order by e.event_timestamp desc`; rows with equal timestamps come newest-inserted
      first (SQL leaves their order open). */
  function NewestFirstOrder(rows: seq<EventRow>): (r: seq<EventRow>)
    ensures |r| == |rows|
    ensures NewestFirst(r)
    ensures forall e :: e in r <==> e in rows
  {
    var sorted := SortByTimestamp(rows);
    assert |sorted| == |rows| by { assert |multiset(sorted)| == |multiset(rows)|; }
    var r := Reverse(sorted);
    ReverseMembers(sorted);
    forall e ensures e in r <==> e in rows {
      assert e in sorted <==> e in multiset(sorted);
    }
    r
  }

  /** `limit $limit offset $offset`. */
  function Window(rows: seq<EventRow>, offset: nat, limit: nat): (r: seq<EventRow>)
    ensures |r| <= limit
    ensures offset <= |rows| ==> r == rows[offset..if offset + limit <= |rows| then offset + limit else |rows|]
    ensures offset >= |rows| ==> r == []
  {
    var start := if offset <= |rows| then offset else |rows|;
    var end := if offset + limit <= |rows| then offset + limit else |rows|;
    rows[start..end]
  }

  /** The newest analysis result of an event (the lateral join), if it has one. */
  function LatestResult(analyses: seq<AnalysisRow>, eventId: int): Option<Json> {
    var a := LatestAnalysis(analyses, eventId);
    if a.Some? then Some(a.value.result) else None
  }

  /** One element of `data`. */
  datatype Summary = Summary(
    id: nat,
    eventTimestamp: int,
    agentId: Option<string>,
    conversationId: Option<string>,
    status: Option<string>,
    hasAudio: Option<bool>,
    hasUserAudio: Option<bool>,
    hasResponseAudio: Option<bool>,
    receivedAt: int,
    topic: Json,
    quality: Json,
    outcome: Json,
    clientName: Json,
    phone: Json)

  /** The row mapping: the analysis fields become `null` when falsy, except the quality,
      which is kept unless it is null or missing (so a quality of 0 is shown). */
  function ToSummary(e: EventRow, result: Option<Json>): (s: Summary)
    ensures s.id == e.id && s.eventTimestamp == e.eventTimestamp && s.agentId == e.agentId
    ensures s.topic == (if Truthy(Prop(result, "topic")) then Prop(result, "topic").value else JNull)
    ensures s.quality == (if Nullish(Prop(result, "quality")) then JNull else Prop(result, "quality").value)
    ensures s.outcome == (if Truthy(Prop(result, "outcome")) then Prop(result, "outcome").value else JNull)
    ensures s.clientName == (if Truthy(Prop(result, "client_name")) then Prop(result, "client_name").value else JNull)
    ensures s.phone == (if Truthy(Prop(result, "phone")) then Prop(result, "phone").value else JNull)
  {
    Summary(e.id, e.eventTimestamp, e.agentId, e.conversationId, e.status,
            e.hasAudio, e.hasUserAudio, e.hasResponseAudio, e.receivedAt,
            Or(Prop(result, "topic"), Some(JNull)).value,
            Coalesce(Prop(result, "quality"), Some(JNull)).value,
            Or(Prop(result, "outcome"), Some(JNull)).value,
            Or(Prop(result, "client_name"), Some(JNull)).value,
            Or(Prop(result, "phone"), Some(JNull)).value)
  }

  /** `rows.map(...)` with each row's latest analysis result. */
  function Summaries(rows: seq<EventRow>, analyses: seq<AnalysisRow>): (r: seq<Summary>)
    ensures |r| == |rows|
    ensures forall i :: 0 <= i < |rows| ==> r[i] == ToSummary(rows[i], LatestResult(analyses, rows[i].id))
  {
    seq(|rows|, i requires 0 <= i < |rows| => ToSummary(rows[i], LatestResult(analyses, rows[i].id)))
  }

  datatype Pagination = Pagination(page: int, limit: int, total: nat, totalPages: nat)

  datatype ListQuery = ListQuery(
    page: Option<string>, limit: Option<string>, dateFrom: Option<string>, dateTo: Option<string>, agentId: Option<string>)

  datatype Listing = Listed(data: seq<Summary>, pagination: Pagination) | ListFailed(details: string)

  /** The HTTP status of a listing response. */
  function ListStatus(r: Listing): int {
    if r.Listed? then 200 else 500
  }

  /** The filters a query asks for. */
  function QueryFilters(q: ListQuery, parseDate: string -> Option<int>): seq<Filter> {
    var agent := if q.agentId.Some? && q.agentId.value != "" then q.agentId else None;
    ActiveFilters(EpochSeconds(q.dateFrom, parseDate), EpochSeconds(q.dateTo, parseDate), agent)
  }

  /** `offset = (page - 1) * limit`. */
  function Offset(page: int, limit: int): nat
    requires page >= 1 && limit >= 1
  {
    (page - 1) * limit
  }

  /** The page of rows the listing query returns. */
  function PageRows(events: seq<EventRow>, fs: seq<Filter>, page: int, limit: int): seq<EventRow>
    requires page >= 1 && limit >= 1
  {
    Window(NewestFirstOrder(Selected(events, fs)), Offset(page, limit), limit)
  }

  /** `GET /events`. Without a database the answer is a fixed empty page; a page or
      limit that is not a number makes the listing query fail. */
  method ListEvents(db: Database, q: ListQuery, parseDate: string -> Option<int>) returns (r: Listing)
    requires db.Valid()
    ensures !db.configured ==> r == Listed([], Pagination(1, 20, 0, 0))
    ensures db.configured && (PageNumber(q.page).None? || PageSize(q.limit).None?) ==> r.ListFailed?
    ensures db.configured && PageNumber(q.page).Some? && PageSize(q.limit).Some? ==>
      var page, limit := PageNumber(q.page).value, PageSize(q.limit).value;
      var fs := QueryFilters(q, parseDate);
      var total := |Selected(db.events, fs)|;
      && (Offset(page, limit) > Decimal.MaxBigint ==> r.ListFailed?)
      && (Offset(page, limit) <= Decimal.MaxBigint ==>
            r == Listed(Summaries(PageRows(db.events, fs, page, limit), db.analyses),
                        Pagination(page, limit, total, TotalPages(total, limit))))
  {
    if !db.configured {
      return Listed([], Pagination(1, 20, 0, 0));
    }
    var dateFrom := EpochSeconds(q.dateFrom, parseDate);
    var dateTo := EpochSeconds(q.dateTo, parseDate);
    var agentId := if q.agentId.Some? && q.agentId.value != "" then q.agentId else None;
    var conditions, whereSql, listParams;
    r, conditions, whereSql, listParams := ListPage(db, PageNumber(q.page), PageSize(q.limit), dateFrom, dateTo, agentId);
  }

  /** The listing once the query values are read: the count query over the filtered
      rows, then the page of them newest first, each with its latest analysis. Besides
      the answer it gives what the route sends to the database: the conditions, the
      `where` clause, and the list query's parameters (the filter values, then limit
      and offset). node-postgres sends the offset as its decimal text for a `bigint`
      placeholder, so an offset beyond `bigint` makes the list query fail. */
  method ListPage(db: Database, page: Option<int>, limit: Option<int>,
                  dateFrom: Option<int>, dateTo: Option<int>, agentId: Option<string>)
    returns (r: Listing, conditions: seq<string>, whereSql: string, listParams: seq<Param>)
    requires db.Valid() && db.configured
    requires page.Some? ==> page.value >= 1
    requires limit.Some? ==> 1 <= limit.value <= 100
    ensures var fs := ActiveFilters(dateFrom, dateTo, agentId);
      && |fs| <= |listParams|
      && Built(conditions, listParams[..|fs|], fs)
      && whereSql == (if |conditions| == 0 then "" else "where " + Text.Join(conditions, " and "))
    ensures page.None? || limit.None? ==> r.ListFailed?
    ensures page.Some? && limit.Some? ==>
      var fs := ActiveFilters(dateFrom, dateTo, agentId);
      var offset := Offset(page.value, limit.value);
      && listParams == listParams[..|fs|] + [PInt(limit.value), PInt(offset)]
      && (offset > Decimal.MaxBigint ==> r.ListFailed?)
      && (offset <= Decimal.MaxBigint ==>
            var total := |Selected(db.events, fs)|;
            r == Listed(Summaries(PageRows(db.events, fs, page.value, limit.value), db.analyses),
                        Pagination(page.value, limit.value, total, TotalPages(total, limit.value))))
  {
    var params;
    conditions, whereSql, params := BuildWhere(dateFrom, dateTo, agentId);
    var fs := ActiveFilters(dateFrom, dateTo, agentId);
    var total := |Selected(db.events, fs)|;
    listParams := params;
    assert listParams[..|fs|] == params;
    if page.None? || limit.None? {
      return ListFailed("invalid input syntax for type bigint: \"NaN\""), conditions, whereSql, listParams;
    }
    var offset := Offset(page.value, limit.value);
    var limitIdx, offsetIdx;
    listParams, limitIdx, offsetIdx := AddPaging(params, limit.value, offset);
    assert listParams[..|fs|] == params;
    if offset > Decimal.MaxBigint {
      return ListFailed("value out of range for type bigint"), conditions, whereSql, listParams;
    }
    var rows := Window(NewestFirstOrder(Selected(db.events, fs)), offset, limit.value);
    r := Listed(Summaries(rows, db.analyses), Pagination(page.value, limit.value, total, TotalPages(total, limit.value)));
  }

  /** A page holds at most `limit` rows, all passing every filter, newest first. */
  lemma PageRowsMeaning(events: seq<EventRow>, fs: seq<Filter>, page: int, limit: int)
    requires page >= 1 && limit >= 1
    ensures var rows := PageRows(events, fs, page, limit);
      && |rows| <= limit
      && (forall e :: e in rows ==> e in events && forall f :: f in fs ==> Satisfies(e, f))
      && NewestFirst(rows)
  {
    WindowMeaning(NewestFirstOrder(Selected(events, fs)), Offset(page, limit), limit);
  }

  /** A window holds rows of the sequence, in its order. */
  lemma WindowMeaning(rows: seq<EventRow>, offset: nat, limit: nat)
    requires NewestFirst(rows)
    ensures forall e :: e in Window(rows, offset, limit) ==> e in rows
    ensures NewestFirst(Window(rows, offset, limit))
  {
    var w := Window(rows, offset, limit);
    if offset <= |rows| {
      forall i | 0 <= i < |w| ensures w[i] == rows[offset + i] { }
    }
  }

  /** Consecutive pages follow each other without a gap or an overlap. */
  lemma ConsecutivePages(events: seq<EventRow>, fs: seq<Filter>, page: int, limit: int)
    requires page >= 1 && limit >= 1
    ensures PageRows(events, fs, page, limit) + PageRows(events, fs, page + 1, limit)
            == Window(NewestFirstOrder(Selected(events, fs)), Offset(page, limit), 2 * limit)
  {
    PagesAdjacent(NewestFirstOrder(Selected(events, fs)), page, limit);
  }

  lemma PagesAdjacent(rows: seq<EventRow>, page: int, limit: int)
    requires page >= 1 && limit >= 1
    ensures Window(rows, Offset(page, limit), limit) + Window(rows, Offset(page + 1, limit), limit)
            == Window(rows, Offset(page, limit), 2 * limit)
  {
    assert Offset(page + 1, limit) == Offset(page, limit) + limit;
    WindowsAdjacent(rows, Offset(page, limit), limit);
  }

  lemma WindowsAdjacent(rows: seq<EventRow>, offset: nat, limit: nat)
    ensures Window(rows, offset, limit) + Window(rows, offset + limit, limit) == Window(rows, offset, 2 * limit)
  {
    if offset + 2 * limit <= |rows| {
      assert rows[offset..offset + 2 * limit] == rows[offset..offset + limit] + rows[offset + limit..offset + 2 * limit];
    } else if offset + limit <= |rows| {
      assert rows[offset..] == rows[offset..offset + limit] + rows[offset + limit..];
    }
  }

  /** An epoch-0 bound is falsy and filters nothing, so `dateTo` at the epoch's first
      second lists every row instead of the rows up to it. */
  lemma EpochZeroBoundIgnored(agentId: Option<string>)
    ensures ActiveFilters(Some(0), Some(0), agentId) == ActiveFilters(None, None, agentId)
  {
  }

  // ---- GET /events/:id ----

  datatype Detail =
    | Found(event: EventRow, analysis: Option<AnalysisRow>)
    | NotFound
    | BadId
    | DetailFailed(details: string)

  /** The HTTP status of a detail response. */
  function DetailStatus(r: Detail): int {
    match r
    case Found(_, _) => 200
    case NotFound => 404
    case BadId => 400
    case DetailFailed(_) => 500
  }

  /** `GET /events/:id`: 404 without a database, 400 when the id does not start with a
      number, a query error when the number does not fit `bigint`, 404 for an unknown
      id, otherwise the event with its latest analysis. */
  method GetEvent(db: Database, idText: string) returns (r: Detail)
    requires db.Valid()
    ensures !db.configured ==> r == NotFound
    ensures db.configured && Decimal.ParseInt(idText).None? ==> r == BadId
    ensures db.configured && Decimal.ParseInt(idText).Some? ==>
      var id := Decimal.ParseInt(idText).value;
      && (!(Decimal.MinBigint <= id <= Decimal.MaxBigint) ==> r.DetailFailed?)
      && (Decimal.MinBigint <= id <= Decimal.MaxBigint ==>
            && (r == NotFound <==> !HasEvent(db.events, id))
            && (r.Found? <==> HasEvent(db.events, id))
            && (r.Found? ==> r.event in db.events && r.event.id == id && r.analysis == LatestAnalysis(db.analyses, id)))
  {
    r := Lookup(db, Decimal.ParseInt(idText));
  }

  /** The route once `parseInt` has read the path parameter (`None` is NaN). */
  method Lookup(db: Database, id: Option<int>) returns (r: Detail)
    requires db.Valid()
    ensures !db.configured ==> r == NotFound
    ensures db.configured && id.None? ==> r == BadId
    ensures db.configured && id.Some? && !(Decimal.MinBigint <= id.value <= Decimal.MaxBigint) ==> r.DetailFailed?
    ensures db.configured && id.Some? && Decimal.MinBigint <= id.value <= Decimal.MaxBigint ==>
      && (r == NotFound <==> !HasEvent(db.events, id.value))
      && (r.Found? <==> HasEvent(db.events, id.value))
      && (r.Found? ==> r.event in db.events && r.event.id == id.value && r.analysis == LatestAnalysis(db.analyses, id.value))
  {
    if !db.configured {
      return NotFound;
    }
    if id.None? {
      return BadId;
    }
    if !(Decimal.MinBigint <= id.value <= Decimal.MaxBigint) {
      return DetailFailed("value out of range for type bigint");
    }
    var ev := db.GetEventById(id.value);
    if ev.None? {
      return NotFound;
    }
    var analysis := db.GetLatestAnalysisByEventId(id.value);
    r := Found(ev.value, analysis);
  }
}

=== FILE: external_crm.dfy ===
/** src/externalCrm.js: a lead for the external CRM (a BPMSoft landing) built from a
    stored event and its analysis, and its delivery by POST with bounded retries. The
    HTTP call is a parameter `post(request, k)` giving the outcome of the k-th POST;
    the waits between attempts are returned as the list of their lengths. */
module ExternalCrm {
  import opened Wrappers
  import opened Js
  import Text
  import Base64

  /** The environment the module reads once: `EXTERNAL_CRM_ENABLED === 'true'`, the
      service URL, landing id, basic-auth pair, timeout and `CRM_MAX_RETRIES` (after
      `parseInt`). */
  datatype Config = Config(
    enabled: bool,
    serviceUrl: string,
    landingId: string,
    user: string,
    pass: string,
    timeoutMs: int,
    maxRetries: int)

  /** `buildAuthorizationHeader()`: basic auth over the UTF-8 bytes of `user:pass` when
      both are set, otherwise no header. */
  function AuthorizationHeader(user: string, pass: string): (h: string)
    ensures (user == "" || pass == "") <==> h == ""
  {
    if user != "" && pass != "" then "Basic " + Base64.Encode(Base64.Utf8(user + ":" + pass)) else ""
  }

  /** The header carries the credentials: its token decodes to `user:pass`. */
  lemma AuthorizationDecodes(user: string, pass: string)
    requires user != "" && pass != ""
    ensures var h := AuthorizationHeader(user, pass);
      && Text.StartsWith(h, "Basic ")
      && Base64.Decode(h[|"Basic "|..]) == Some(Base64.Utf8(user + ":" + pass))
  {
    var token := Base64.Encode(Base64.Utf8(user + ":" + pass));
    assert AuthorizationHeader(user, pass)[|"Basic "|..] == token;
    Base64.DecodeEncode(Base64.Utf8(user + ":" + pass));
  }

  // ---- buildCommentary ----

  /** `heading + value` when the value is truthy, otherwise nothing. */
  function Labelled(heading: string, v: Option<Json>): (r: seq<string>)
    ensures |r| <= 1
    ensures r != [] <==> Truthy(v)
    ensures Truthy(v) ==> r == [heading + ToText(v.value)]
  {
    if Truthy(v) then [heading + OptText(v)] else []
  }

  /** `${v ?? 'n/a'}`. */
  function OrNotAvailable(v: Option<Json>): string {
    if Nullish(v) then "n/a" else ToText(v.value)
  }

  /** The part that is always there, last. */
  function IdsPart(eventRow: Option<Json>): string {
    "IDs: event=" + OrNotAvailable(Prop(eventRow, "id"))
    + ", agent=" + OrNotAvailable(Prop(eventRow, "agent_id"))
    + ", conv=" + OrNotAvailable(Prop(eventRow, "conversation_id"))
  }

  /** The parts of the commentary in order: topic, intent, quality (whenever the key is
      present, even when falsy), outcome, Russian summary, recommendations, ids. */
  function CommentaryParts(eventRow: Option<Json>, analysis: Option<Json>): (parts: seq<string>)
    ensures 1 <= |parts| <= 7
    ensures parts[|parts| - 1] == IdsPart(eventRow)
  {
    var quality := Prop(analysis, "quality");
    Labelled("Тема: ", Prop(analysis, "topic"))
    + Labelled("Намерение: ", Prop(analysis, "intent"))
    + (if quality.Some? then ["Качество: " + ToText(quality.value)] else [])
    + Labelled("Итог: ", Prop(analysis, "outcome"))
    + Labelled("Итог (RU): ", Prop(analysis, "summary_ru"))
    + Labelled("Рекомендации: ", Prop(analysis, "recommendations"))
    + [IdsPart(eventRow)]
  }

  /** Which parts the commentary has and in which order: each labelled value only when
      it is truthy, the quality whenever the key is defined (`null`, `''` and 0
      included), and the ids part always, last. */
  lemma CommentaryPartsOrder(eventRow: Option<Json>, analysis: Option<Json>)
    ensures var topic, intent, quality := Prop(analysis, "topic"), Prop(analysis, "intent"), Prop(analysis, "quality");
      var outcome, summary, advice := Prop(analysis, "outcome"), Prop(analysis, "summary_ru"), Prop(analysis, "recommendations");
      CommentaryParts(eventRow, analysis)
        == (if Truthy(topic) then ["Тема: " + ToText(topic.value)] else [])
         + (if Truthy(intent) then ["Намерение: " + ToText(intent.value)] else [])
         + (if quality.Some? then ["Качество: " + ToText(quality.value)] else [])
         + (if Truthy(outcome) then ["Итог: " + ToText(outcome.value)] else [])
         + (if Truthy(summary) then ["Итог (RU): " + ToText(summary.value)] else [])
         + (if Truthy(advice) then ["Рекомендации: " + ToText(advice.value)] else [])
         + [IdsPart(eventRow)]
  {
    var topic, intent := Prop(analysis, "topic"), Prop(analysis, "intent");
    var outcome, summary, advice := Prop(analysis, "outcome"), Prop(analysis, "summary_ru"), Prop(analysis, "recommendations");
    var quality := Prop(analysis, "quality");
    var q := if quality.Some? then ["Качество: " + ToText(quality.value)] else [];
    assert CommentaryParts(eventRow, analysis)
      == Labelled("Тема: ", topic) + Labelled("Намерение: ", intent) + q + Labelled("Итог: ", outcome)
       + Labelled("Итог (RU): ", summary) + Labelled("Рекомендации: ", advice) + [IdsPart(eventRow)];
    assert Labelled("Тема: ", topic) == (if Truthy(topic) then ["Тема: " + ToText(topic.value)] else []);
    assert Labelled("Намерение: ", intent) == (if Truthy(intent) then ["Намерение: " + ToText(intent.value)] else []);
    assert Labelled("Итог: ", outcome) == (if Truthy(outcome) then ["Итог: " + ToText(outcome.value)] else []);
    assert Labelled("Итог (RU): ", summary) == (if Truthy(summary) then ["Итог (RU): " + ToText(summary.value)] else []);
    assert Labelled("Рекомендации: ", advice) == (if Truthy(advice) then ["Рекомендации: " + ToText(advice.value)] else []);
  }

  /** `buildCommentary(eventRow, analysis)`: the parts joined by " | ", so it always ends
      with the ids part. */
  function Commentary(eventRow: Option<Json>, analysis: Option<Json>): (c: string)
    ensures |IdsPart(eventRow)| <= |c| && c[|c| - |IdsPart(eventRow)|..] == IdsPart(eventRow)
  {
    var parts := CommentaryParts(eventRow, analysis);
    var ids := IdsPart(eventRow);
    if |parts| == 1 then
      Text.Join(parts, " | ")
    else
      assert parts == parts[..|parts| - 1] + [ids];
      Text.JoinSnoc(parts[..|parts| - 1], ids, " | ");
      Text.Join(parts, " | ")
  }

  /** The commentary always ends with the ids part, so it is never empty; without any
      analysis it is only the ids part. */
  lemma CommentaryShape(eventRow: Option<Json>, analysis: Option<Json>)
    ensures var c := Commentary(eventRow, analysis);
      && c != ""
      && |IdsPart(eventRow)| <= |c|
      && c[|c| - |IdsPart(eventRow)|..] == IdsPart(eventRow)
      && (analysis.None? || !analysis.value.JObj? ==> c == IdsPart(eventRow))
  {
    var parts := CommentaryParts(eventRow, analysis);
    var ids := IdsPart(eventRow);
    if |parts| == 1 {
      assert Commentary(eventRow, analysis) == ids;
    } else {
      assert parts == parts[..|parts| - 1] + [ids];
      Text.JoinSnoc(parts[..|parts| - 1], ids, " | ");
    }
  }

  /** A quality score of 0 is falsy, yet it is still reported, whatever else the
      analysis holds. */
  lemma QualityZeroCommented(eventRow: Option<Json>, analysis: Option<Json>)
    requires Prop(analysis, "quality") == Some(JNum(0))
    ensures "Качество: 0" in CommentaryParts(eventRow, analysis)
  {
    var quality := Prop(analysis, "quality");
    var q := if quality.Some? then ["Качество: " + ToText(quality.value)] else [];
    assert ToText(quality.value) == "0";
    assert "Качество: " + "0" == "Качество: 0";
    assert q == ["Качество: 0"];
    var front := Labelled("Тема: ", Prop(analysis, "topic")) + Labelled("Намерение: ", Prop(analysis, "intent")) + q;
    assert "Качество: 0" in front;
  }

  // ---- extractContactFromEvent ----

  datatype Contact = Contact(fullName: Json, phone: Json, email: Json)

  /** `eventRow?.payload || {}`. */
  function EventPayload(eventRow: Option<Json>): Option<Json> {
    Or(Prop(eventRow, "payload"), Some(EmptyObject))
  }

  /** `(payload?.data || {}).contact || {}`. */
  function PayloadContact(payload: Option<Json>): Option<Json> {
    Or(Prop(Or(Prop(payload, "data"), Some(EmptyObject)), "contact"), Some(EmptyObject))
  }

  /** Where each contact value is looked for, in order of preference. The last source of
      the name and the phone is the analysis (`analysis?.client_name || ''`, which adds
      nothing beyond the value itself to an `||` chain). */
  function NameSources(eventRow: Option<Json>, analysis: Option<Json>): seq<Option<Json>> {
    var payload := EventPayload(eventRow);
    var contact := PayloadContact(payload);
    [Prop(contact, "fullName"), Prop(contact, "name"), Prop(payload, "user_name"), Prop(analysis, "client_name")]
  }

  function PhoneSources(eventRow: Option<Json>, analysis: Option<Json>): seq<Option<Json>> {
    var payload := EventPayload(eventRow);
    var contact := PayloadContact(payload);
    [Prop(contact, "phone"), Prop(payload, "user_phone"), Prop(analysis, "phone")]
  }

  function EmailSources(eventRow: Option<Json>): seq<Option<Json>> {
    var payload := EventPayload(eventRow);
    var contact := PayloadContact(payload);
    [Prop(contact, "email"), Prop(payload, "user_email")]
  }

  /** `extractContactFromEvent(eventRow, analysis)`: each value is its first truthy
      source, or the empty string. */
  function ExtractContact(eventRow: Option<Json>, analysis: Option<Json>): (c: Contact)
    ensures (forall k :: 0 <= k < 4 ==> !Truthy(NameSources(eventRow, analysis)[k])) ==> c.fullName == JStr("")
    ensures forall k :: (0 <= k < 4 && Truthy(NameSources(eventRow, analysis)[k])
                         && forall j :: 0 <= j < k ==> !Truthy(NameSources(eventRow, analysis)[j])) ==>
              c.fullName == NameSources(eventRow, analysis)[k].value
    ensures (forall k :: 0 <= k < 3 ==> !Truthy(PhoneSources(eventRow, analysis)[k])) ==> c.phone == JStr("")
    ensures forall k :: (0 <= k < 3 && Truthy(PhoneSources(eventRow, analysis)[k])
                         && forall j :: 0 <= j < k ==> !Truthy(PhoneSources(eventRow, analysis)[j])) ==>
              c.phone == PhoneSources(eventRow, analysis)[k].value
    ensures (forall k :: 0 <= k < 2 ==> !Truthy(EmailSources(eventRow)[k])) ==> c.email == JStr("")
    ensures forall k :: (0 <= k < 2 && Truthy(EmailSources(eventRow)[k])
                         && forall j :: 0 <= j < k ==> !Truthy(EmailSources(eventRow)[j])) ==>
              c.email == EmailSources(eventRow)[k].value
  {
    Contact(FirstTruthy(NameSources(eventRow, analysis)),
            FirstTruthy(PhoneSources(eventRow, analysis)),
            FirstTruthy(EmailSources(eventRow)))
  }

  /** A name given in the webhook payload's contact wins over `user_name` and over the
      name the analysis extracted: `contact.fullName` when truthy, else `contact.name`. */
  lemma PayloadContactWins(eventRow: Option<Json>, analysis: Option<Json>)
    requires var contact := PayloadContact(EventPayload(eventRow));
      Truthy(Prop(contact, "fullName")) || Truthy(Prop(contact, "name"))
    ensures var contact := PayloadContact(EventPayload(eventRow));
      ExtractContact(eventRow, analysis).fullName
        == (if Truthy(Prop(contact, "fullName")) then Prop(contact, "fullName") else Prop(contact, "name")).value
  {
    var sources := NameSources(eventRow, analysis);
    if !Truthy(sources[0]) {
      assert Truthy(sources[1]);
    }
  }

  // ---- buildBpmsoftPayload ----

  datatype Field = Field(name: string, value: Json)

  datatype LeadPayload = LeadPayload(landingId: string, fields: seq<Field>, contactFields: seq<Field>)

  /** `.filter(f => f.value)`. */
  function KeepTruthy(fs: seq<Field>): (r: seq<Field>)
    ensures |r| <= |fs|
    ensures forall f :: f in r <==> f in fs && Truthy(Some(f.value))
  {
    if |fs| == 0 then []
    else
      var rest := KeepTruthy(fs[1..]);
      assert forall f :: f in fs <==> f == fs[0] || f in fs[1..];
      if Truthy(Some(fs[0].value)) then [fs[0]] + rest else rest
  }

  /** `v != null ? String(v) : ''`. */
  function TextUnlessNullish(v: Option<Json>): string {
    if Nullish(v) then "" else ToText(v.value)
  }

  /** The lead's fields before the filter, in their fixed order. */
  function CandidateFields(comment: string, eventRow: Option<Json>, analysis: Option<Json>): seq<Field> {
    [ Field("Commentary", JStr(comment)),
      Field("UsrQualificationComment", JStr(comment)),
      Field("UsrTSLeadStatus", FirstTruthy([Prop(analysis, "outcome")])),
      Field("UsrQualificationTopic", FirstTruthy([Prop(analysis, "topic")])),
      Field("UsrIntent", FirstTruthy([Prop(analysis, "intent")])),
      Field("UsrQualityScore", JStr(TextUnlessNullish(Prop(analysis, "quality")))),
      Field("UsrEventId", JStr(TextUnlessNullish(Prop(eventRow, "id")))),
      Field("UsrAgentId", FirstTruthy([Prop(eventRow, "agent_id")])),
      Field("UsrConversationId", FirstTruthy([Prop(eventRow, "conversation_id")])) ]
  }

  /** The filter keeps the order: filtering a concatenation is concatenating the
      filtered parts. */
  lemma {:induction false} KeepTruthyAppend(a: seq<Field>, b: seq<Field>)
    ensures KeepTruthy(a + b) == KeepTruthy(a) + KeepTruthy(b)
  {
    if |a| > 0 {
      assert (a + b)[1..] == a[1..] + b;
      KeepTruthyAppend(a[1..], b);
    } else {
      assert a + b == b;
    }
  }

  /** A single field is kept exactly when its value is truthy. */
  lemma KeepTruthySingle(f: Field)
    ensures KeepTruthy([f]) == if Truthy(Some(f.value)) then [f] else []
  {
    assert [f][1..] == [];
  }

  /** The first field is kept in front exactly when its value is truthy. */
  lemma KeepTruthyCons(f: Field, rest: seq<Field>)
    ensures KeepTruthy([f] + rest) == (if Truthy(Some(f.value)) then [f] else []) + KeepTruthy(rest)
  {
    assert ([f] + rest)[1..] == rest;
  }

  lemma SeqAssoc<T>(x: seq<T>, y: seq<T>, z: seq<T>)
    ensures x + (y + z) == x + y + z
  {
  }

  /** Three fields are kept in their order, each exactly when its value is truthy. */
  lemma KeepTruthyThree(a: Field, b: Field, c: Field)
    ensures KeepTruthy([a, b, c]) == (if Truthy(Some(a.value)) then [a] else [])
                                   + (if Truthy(Some(b.value)) then [b] else [])
                                   + (if Truthy(Some(c.value)) then [c] else [])
  {
    assert [a, b, c] == [a] + [b, c];
    assert [b, c] == [b] + [c];
    KeepTruthyCons(a, [b, c]);
    KeepTruthyCons(b, [c]);
    KeepTruthySingle(c);
    SeqAssoc(if Truthy(Some(a.value)) then [a] else [], if Truthy(Some(b.value)) then [b] else [], if Truthy(Some(c.value)) then [c] else []);
  }

  /** The `contactFields` of the lead: full name, phone and e-mail in this order, each
      exactly when the contact value found for it is truthy. */
  function ContactFields(eventRow: Option<Json>, analysis: Option<Json>): (fs: seq<Field>)
    ensures var c := ExtractContact(eventRow, analysis);
      fs == (if Truthy(Some(c.fullName)) then [Field("FullName", c.fullName)] else [])
          + (if Truthy(Some(c.phone)) then [Field("Phone", c.phone)] else [])
          + (if Truthy(Some(c.email)) then [Field("Email", c.email)] else [])
    ensures forall f :: f in fs ==> Truthy(Some(f.value)) && f.name in {"FullName", "Phone", "Email"}
  {
    var contact := ExtractContact(eventRow, analysis);
    var name, phone, email := Field("FullName", contact.fullName), Field("Phone", contact.phone), Field("Email", contact.email);
    KeepTruthyThree(name, phone, email);
    KeepTruthy([name, phone, email])
  }

  /** `buildBpmsoftPayload(eventRow, analysis)`: the landing id, the filtered lead fields
      led by the two commentary fields, and the contact fields. */
  function BuildPayload(eventRow: Option<Json>, analysis: Option<Json>, landingId: string): (p: LeadPayload)
    ensures p.landingId == landingId && p.contactFields == ContactFields(eventRow, analysis)
    ensures var comment := Commentary(eventRow, analysis);
      |p.fields| >= 2 && p.fields[0] == Field("Commentary", JStr(comment))
      && p.fields[1] == Field("UsrQualificationComment", JStr(comment))
  {
    var comment := Commentary(eventRow, analysis);
    CommentaryFieldsLead(comment, eventRow, analysis);
    LeadPayload(landingId, KeepTruthy(CandidateFields(comment, eventRow, analysis)), ContactFields(eventRow, analysis))
  }

  lemma CommentaryNotEmpty(eventRow: Option<Json>, analysis: Option<Json>)
    ensures Commentary(eventRow, analysis) != ""
  {
    CommentaryShape(eventRow, analysis);
  }

  /** The filter keeps truthy leading fields in front. */
  lemma KeepTruthyLeading(fs: seq<Field>)
    requires |fs| >= 2 && Truthy(Some(fs[0].value)) && Truthy(Some(fs[1].value))
    ensures var r := KeepTruthy(fs); |r| >= 2 && r[0] == fs[0] && r[1] == fs[1]
  {
    assert fs[1..][0] == fs[1];
  }

  /** The commentary is never empty (`CommentaryNotEmpty`), so the two commentary fields
      always lead the list. */
  lemma CommentaryFieldsLead(comment: string, eventRow: Option<Json>, analysis: Option<Json>)
    requires comment != ""
    ensures var fs := KeepTruthy(CandidateFields(comment, eventRow, analysis));
      |fs| >= 2 && fs[0] == Field("Commentary", JStr(comment)) && fs[1] == Field("UsrQualificationComment", JStr(comment))
  {
    KeepTruthyLeading(CandidateFields(comment, eventRow, analysis));
  }

  /** A quality score is sent whenever the analysis has a non-null one, including 0, and
      only then. */
  lemma QualityScoreField(comment: string, eventRow: Option<Json>, analysis: Option<Json>)
    ensures var fs := KeepTruthy(CandidateFields(comment, eventRow, analysis));
      var q := Prop(analysis, "quality");
      && ((exists f :: f in fs && f.name == "UsrQualityScore") <==> !Nullish(q) && ToText(q.value) != "")
      && (!Nullish(q) && ToText(q.value) != "" ==> Field("UsrQualityScore", JStr(ToText(q.value))) in fs)
  {
    var all := CandidateFields(comment, eventRow, analysis);
    CandidateFieldsNamed(comment, eventRow, analysis);
    TextFieldKept(all, 5, TextUnlessNullish(Prop(analysis, "quality")));
  }

  /** The event id is sent whenever the row has a non-null one with non-empty text. */
  lemma EventIdField(comment: string, eventRow: Option<Json>, analysis: Option<Json>)
    ensures var fs := KeepTruthy(CandidateFields(comment, eventRow, analysis));
      (exists f :: f in fs && f.name == "UsrEventId") <==> TextUnlessNullish(Prop(eventRow, "id")) != ""
  {
    var all := CandidateFields(comment, eventRow, analysis);
    CandidateFieldsNamed(comment, eventRow, analysis);
    TextFieldKept(all, 6, TextUnlessNullish(Prop(eventRow, "id")));
  }

  /** The names of the lead's fields before the filter, in their order. */
  predicate NamedAsLead(fs: seq<Field>) {
    && |fs| == 9
    && fs[0].name == "Commentary" && fs[1].name == "UsrQualificationComment"
    && fs[2].name == "UsrTSLeadStatus" && fs[3].name == "UsrQualificationTopic"
    && fs[4].name == "UsrIntent" && fs[5].name == "UsrQualityScore"
    && fs[6].name == "UsrEventId" && fs[7].name == "UsrAgentId" && fs[8].name == "UsrConversationId"
  }

  lemma CandidateFieldsNamed(comment: string, eventRow: Option<Json>, analysis: Option<Json>)
    ensures NamedAsLead(CandidateFields(comment, eventRow, analysis))
  {
  }

  /** Each lead field after the two commentary fields has a name of its own, so the
      filter keeps it exactly when its value is truthy. */
  lemma LeadFieldKept(fs: seq<Field>, k: nat)
    requires NamedAsLead(fs) && 2 <= k < 9
    ensures (exists f :: f in KeepTruthy(fs) && f.name == fs[k].name) <==> Truthy(Some(fs[k].value))
    ensures Truthy(Some(fs[k].value)) ==> fs[k] in KeepTruthy(fs)
  {
    forall j | 0 <= j < 9 && j != k ensures fs[j].name != fs[k].name {
      assert fs[j].name[..3] != fs[k].name[..3] || |fs[j].name| != |fs[k].name| || fs[j].name[3] != fs[k].name[3]
        || fs[j].name[6] != fs[k].name[6];
    }
    FieldKept(fs, k);
  }

  /** The same for a field whose value is text: it is kept exactly when the text is not
      empty. */
  lemma TextFieldKept(fs: seq<Field>, k: nat, t: string)
    requires NamedAsLead(fs) && 2 <= k < 9 && fs[k].value == JStr(t)
    ensures (exists f :: f in KeepTruthy(fs) && f.name == fs[k].name) <==> t != ""
    ensures t != "" ==> Field(fs[k].name, JStr(t)) in KeepTruthy(fs)
  {
    LeadFieldKept(fs, k);
  }

  /** A field whose name no other field has is kept exactly when its value is truthy. */
  lemma FieldKept(fs: seq<Field>, k: nat)
    requires k < |fs|
    requires forall j :: 0 <= j < |fs| && j != k ==> fs[j].name != fs[k].name
    ensures (exists f :: f in KeepTruthy(fs) && f.name == fs[k].name) <==> Truthy(Some(fs[k].value))
    ensures Truthy(Some(fs[k].value)) ==> fs[k] in KeepTruthy(fs)
  {
    if exists f :: f in KeepTruthy(fs) && f.name == fs[k].name {
      var f :| f in KeepTruthy(fs) && f.name == fs[k].name;
      var j :| 0 <= j < |fs| && fs[j] == f;
    }
  }

  // ---- postToBpmsoft / sendLeadAnalytics ----

  datatype Request = Request(url: string, headers: seq<(string, string)>, body: LeadPayload, timeoutMs: int)

  /** How one POST ended: the response status and body text, or the error `fetch`
      threw (network failure, abort after the timeout). */
  datatype PostOutcome = Response(status: int, text: string) | Threw(error: string)

  /** `resp.ok`. */
  predicate Succeeded(o: PostOutcome) {
    o.Response? && 200 <= o.status <= 299
  }

  datatype SendResult = Sent | Skipped(reason: string) | FailedStatus(status: int, body: string) | FailedError(error: string)

  /** The headers of `postToBpmsoft`: JSON content, plus basic auth when configured. */
  function Headers(cfg: Config): (h: seq<(string, string)>)
    ensures |h| >= 1 && h[0] == ("Content-Type", "application/json")
    ensures |h| == 2 <==> cfg.user != "" && cfg.pass != ""
  {
    var auth := AuthorizationHeader(cfg.user, cfg.pass);
    [("Content-Type", "application/json")] + (if auth != "" then [("Authorization", auth)] else [])
  }

  function LeadRequest(cfg: Config, eventRow: Option<Json>, analysis: Option<Json>): Request {
    Request(cfg.serviceUrl, Headers(cfg), BuildPayload(eventRow, analysis, cfg.landingId), cfg.timeoutMs)
  }

  /** The retries after the first POST: `attempt > CRM_MAX_RETRIES` ends the loop, so a
      negative setting allows none. */
  function Retries(maxRetries: int): nat {
    if maxRetries < 0 then 0 else maxRetries
  }

  /** The waits after the first `n` failed attempts: 300 ms, 600 ms, ... */
  function Backoff(n: nat): (d: seq<int>)
    ensures |d| == n && forall k :: 0 <= k < n ==> d[k] == 300 * (k + 1)
  {
    seq(n, k => 300 * (k + 1))
  }

  /** The result reported after the last failed attempt. */
  function Failure(o: PostOutcome): SendResult {
    match o
    case Response(status, text) => FailedStatus(status, text)
    case Threw(e) => FailedError(e)
  }

  /** The retry loop of `sendLeadAnalytics` for one request: POST until a 2xx response,
      giving up once `attempt` exceeds the retry setting, and waiting `300 * attempt` ms
      after each earlier failure. `posts` is the number of POSTs made, `delays` the
      waits between them. */
  method Deliver(req: Request, maxRetries: int, post: (Request, nat) -> PostOutcome)
    returns (result: SendResult, posts: nat, delays: seq<int>)
    ensures 1 <= posts <= Retries(maxRetries) + 1
    ensures delays == Backoff(posts - 1)
    ensures forall k :: 0 <= k < posts - 1 ==> !Succeeded(post(req, k))
    ensures result == Sent <==> Succeeded(post(req, posts - 1))
    ensures result != Sent ==> posts == Retries(maxRetries) + 1 && result == Failure(post(req, posts - 1))
  {
    posts, delays := 0, [];
    var attempt: int := 0;
    while true
      invariant posts == attempt <= Retries(maxRetries)
      invariant forall k :: 0 <= k < posts ==> !Succeeded(post(req, k))
      invariant delays == Backoff(posts)
      decreases Retries(maxRetries) - attempt
    {
      var res := post(req, posts);
      posts := posts + 1;
      match res {
        case Response(status, text) =>
          if 200 <= status <= 299 {
            return Sent, posts, delays;
          }
          attempt := attempt + 1;
          if attempt > maxRetries {
            return FailedStatus(status, text), posts, delays;
          }
        case Threw(e) =>
          attempt := attempt + 1;
          if attempt > maxRetries {
            return FailedError(e), posts, delays;
          }
      }
      delays := delays + [300 * attempt];
    }
  }

  /** `sendLeadAnalytics(eventRow, analysis)`. It never throws: every outcome is one of
      the results. */
  method SendLeadAnalytics(cfg: Config, eventRow: Option<Json>, analysis: Option<Json>,
                           post: (Request, nat) -> PostOutcome)
    returns (result: SendResult, request: Option<Request>, posts: nat, delays: seq<int>)
    ensures !cfg.enabled ==> result == Skipped("disabled") && request.None? && posts == 0
    ensures cfg.enabled && (cfg.serviceUrl == "" || cfg.landingId == "") ==>
      result == Skipped("not_configured") && request.None? && posts == 0
    ensures cfg.enabled && cfg.serviceUrl != "" && cfg.landingId != "" ==>
      && request == Some(LeadRequest(cfg, eventRow, analysis))
      && 1 <= posts <= Retries(cfg.maxRetries) + 1
      && delays == Backoff(posts - 1)
      && (forall k :: 0 <= k < posts - 1 ==> !Succeeded(post(request.value, k)))
      && (result == Sent <==> Succeeded(post(request.value, posts - 1)))
      && (result != Sent ==> posts == Retries(cfg.maxRetries) + 1 && result == Failure(post(request.value, posts - 1)))
  {
    if !cfg.enabled {
      return Skipped("disabled"), None, 0, [];
    }
    if cfg.serviceUrl == "" || cfg.landingId == "" {
      return Skipped("not_configured"), None, 0, [];
    }
    var req := LeadRequest(cfg, eventRow, analysis);
    request := Some(req);
    result, posts, delays := Deliver(req, cfg.maxRetries, post);
  }
}

=== FILE: hex.dfy ===
/** Base16 (section 8 of RFC 4648) as Node's `digest('hex')` writes it and
    `Buffer.from(text, 'hex')` reads it. */
module Hex {
  import opened Wrappers

  type byte = x: int | 0 <= x < 256

  const HexDigits: string := "0123456789abcdef"

  predicate IsLowerHex(c: char) { '0' <= c <= '9' || 'a' <= c <= 'f' }

  /** The value of one hexadecimal digit, either case. */
  function DigitValue(c: char): (r: Option<nat>)
    ensures r.Some? ==> r.value < 16
  {
    if '0' <= c <= '9' then Some(c as int - '0' as int)
    else if 'a' <= c <= 'f' then Some(c as int - 'a' as int + 10)
    else if 'A' <= c <= 'F' then Some(c as int - 'A' as int + 10)
    else None
  }

  /** Lower-case hexadecimal text of a byte sequence, two digits per byte. */
  function Encode(b: seq<byte>): (s: string)
    ensures |s| == 2 * |b|
    ensures forall i :: 0 <= i < |s| ==> IsLowerHex(s[i])
  {
    if |b| == 0 then ""
    else [HexDigits[b[0] / 16], HexDigits[b[0] % 16]] + Encode(b[1..])
  }

  /** Node's lenient decoder: bytes are read from consecutive pairs of digits and
      decoding stops, without an error, at the first pair that is not two hexadecimal
      digits; an unpaired last character is dropped. */
  function Decode(s: string): (b: seq<byte>)
    ensures |b| <= |s| / 2
  {
    if |s| < 2 then []
    else
      var hi := DigitValue(s[0]);
      var lo := DigitValue(s[1]);
      if hi.None? || lo.None? then []
      else [hi.value * 16 + lo.value] + Decode(s[2..])
  }

  lemma EncodedDigit(d: nat)
    requires d < 16
    ensures IsLowerHex(HexDigits[d]) && DigitValue(HexDigits[d]) == Some(d)
  {
  }

  /** The two digits the encoder writes for a byte decode back to it. */
  lemma DecodePair(x: byte, rest: string)
    ensures Decode([HexDigits[x / 16], HexDigits[x % 16]] + rest) == [x] + Decode(rest)
  {
    var s := [HexDigits[x / 16], HexDigits[x % 16]] + rest;
    EncodedDigit(x / 16);
    EncodedDigit(x % 16);
    assert s[2..] == rest;
  }

  /** Decoding what the encoder wrote gives back the bytes. */
  lemma {:induction false} DecodeEncode(b: seq<byte>)
    ensures Decode(Encode(b)) == b
  {
    if |b| > 0 {
      DecodePair(b[0], Encode(b[1..]));
      DecodeEncode(b[1..]);
      assert [b[0]] + b[1..] == b;
    }
  }

  /** An encoded digest never contains a character that would end a header token. */
  lemma EncodeHasNoSeparator(b: seq<byte>, c: char)
    requires !IsLowerHex(c)
    ensures c !in Encode(b)
  {
  }
}

=== FILE: js.dfy ===
/** JavaScript values as the code sees them after `JSON.parse` or from a database row.
    `undefined` (a missing property) is `None` of an `Option<Json>`. Numbers are
    integers: no value the code computes with is fractional. */
module Js {
  import opened Wrappers
  import Text
  import Decimal

  datatype Json =
    | JNull
    | JBool(b: bool)
    | JNum(n: int)
    | JStr(s: string)
    | JArr(items: seq<Json>)
    | JObj(fields: map<string, Json>)

  /** `v?.key`: the property of an object, `undefined` for a missing key, for
      `null`/`undefined` and for a primitive or array (none of the keys the code reads
      exists on those). */
  function Prop(v: Option<Json>, key: string): (r: Option<Json>)
    ensures r.Some? <==> v.Some? && v.value.JObj? && key in v.value.fields
  {
    if v.Some? && v.value.JObj? && key in v.value.fields then Some(v.value.fields[key]) else None
  }

  /** JavaScript truthiness. */
  predicate Truthy(v: Option<Json>) {
    match v
    case None => false
    case Some(JNull) => false
    case Some(JBool(b)) => b
    case Some(JNum(n)) => n != 0
    case Some(JStr(s)) => s != ""
    case Some(_) => true
  }

  /** `v == null` with loose equality: `null` or `undefined`. */
  predicate Nullish(v: Option<Json>) {
    v.None? || v.value.JNull?
  }

  /** `a || b`. */
  function Or(a: Option<Json>, b: Option<Json>): (r: Option<Json>)
    ensures Truthy(a) ==> r == a
    ensures !Truthy(a) ==> r == b
  {
    if Truthy(a) then a else b
  }

  /** `a ?? b`. */
  function Coalesce(a: Option<Json>, b: Option<Json>): (r: Option<Json>)
    ensures !Nullish(a) ==> r == a
    ensures Nullish(a) ==> r == b
  {
    if Nullish(a) then b else a
  }

  /** `String(v)`, which is also what a template literal `${v}` produces: arrays join
      their elements with commas (null elements as empty text), plain objects give
      "[object Object]". */
  function ToText(v: Json): string
    decreases v
  {
    match v
    case JNull => "null"
    case JBool(b) => if b then "true" else "false"
    case JNum(n) => Decimal.IntToDecimal(n)
    case JStr(s) => s
    case JArr(items) =>
      Text.Join(seq(|items|, i requires 0 <= i < |items| => if items[i].JNull? then "" else ToText(items[i])), ",")
    case JObj(_) => "[object Object]"
  }

  /** `String(v)` or `${v}` where `v` may be `undefined`. */
  function OptText(v: Option<Json>): string {
    if v.None? then "undefined" else ToText(v.value)
  }

  /** The value of `c[0] || c[1] || ... || ''`: the first truthy candidate, or the
      empty string. */
  function FirstTruthy(c: seq<Option<Json>>): (r: Json)
    ensures (forall k :: 0 <= k < |c| ==> !Truthy(c[k])) ==> r == JStr("")
    ensures forall k :: 0 <= k < |c| && Truthy(c[k]) && (forall j :: 0 <= j < k ==> !Truthy(c[j])) ==> r == c[k].value
  {
    if |c| == 0 then JStr("")
    else if Truthy(c[0]) then c[0].value
    else FirstTruthy(c[1..])
  }

  /** The empty object literal `{}`. */
  const EmptyObject: Json := JObj(map[])
}

=== FILE: signature.dfy ===
/** The webhook signature check of src/server.js. The header has the form
    "t=TIMESTAMP, s=HMAC_HEX"; the signature is HMAC-SHA256 (RFC 2104 over FIPS 180-4
    SHA-256) keyed with the shared secret, over the timestamp text, a dot and the raw
    body, written in lower-case hexadecimal. */
module Signature {
  import opened Wrappers
  import Text
  import Decimal
  import Hex

  /** HMAC-SHA256(key, message): the digest is not computed here, it is a parameter. */
  type Mac = (string, string) -> seq<Hex.byte>

  function Abs(x: int): nat { if x < 0 then -x else x }

  /** `parts.map(p => p.trim())`. */
  function TrimAll(parts: seq<string>): (r: seq<string>)
    ensures |r| == |parts|
  {
    if |parts| == 0 then [] else [Text.Trim(parts[0])] + TrimAll(parts[1..])
  }

  /** The header's trimmed comma-separated tokens. */
  function Tokens(header: string): seq<string> {
    TrimAll(Text.Split(header, ','))
  }

  /** `parts.find(p => p.startsWith(prefix))`: the first token with that prefix. */
  function FindWithPrefix(parts: seq<string>, prefix: string): (r: Option<string>)
    ensures r.Some? ==> Text.StartsWith(r.value, prefix)
  {
    if |parts| == 0 then None
    else if Text.StartsWith(parts[0], prefix) then Some(parts[0])
    else FindWithPrefix(parts[1..], prefix)
  }

  /** The find returns the first token with the prefix, and finds one whenever there is one. */
  lemma {:induction false} FindWithPrefixFirst(parts: seq<string>, prefix: string)
    ensures FindWithPrefix(parts, prefix).Some? <==>
      exists k :: 0 <= k < |parts| && Text.StartsWith(parts[k], prefix)
    ensures FindWithPrefix(parts, prefix).Some? ==>
      exists k :: 0 <= k < |parts| && parts[k] == FindWithPrefix(parts, prefix).value &&
        forall j :: 0 <= j < k ==> !Text.StartsWith(parts[j], prefix)
  {
    if |parts| > 0 && !Text.StartsWith(parts[0], prefix) {
      FindWithPrefixFirst(parts[1..], prefix);
      assert forall k :: 1 <= k < |parts| ==> parts[k] == parts[1..][k - 1];
      if FindWithPrefix(parts, prefix).Some? {
        var k :| 0 <= k < |parts[1..]| && parts[1..][k] == FindWithPrefix(parts, prefix).value &&
          forall j :: 0 <= j < k ==> !Text.StartsWith(parts[1..][j], prefix);
        assert parts[k + 1] == FindWithPrefix(parts, prefix).value;
      }
    } else if |parts| > 0 {
      assert parts[0] == FindWithPrefix(parts, prefix).value;
    }
  }

  /** `computeHmacHex(timestamp, rawBody)`: the hex digest over `timestamp.rawBody`. */
  function ComputeHmacHex(mac: Mac, secret: string, timestamp: string, rawBody: string): string {
    Hex.Encode(mac(secret, timestamp + "." + rawBody))
  }

  /** The raw texts after `t=` and `s=` in the first token with each prefix, if both exist. */
  function HeaderFields(header: string): (r: Option<(string, string)>)
    ensures r.Some? <==> FindWithPrefix(Tokens(header), "t=").Some? && FindWithPrefix(Tokens(header), "s=").Some?
    ensures r.Some? ==>
      && "t=" + r.value.0 == FindWithPrefix(Tokens(header), "t=").value
      && "s=" + r.value.1 == FindWithPrefix(Tokens(header), "s=").value
  {
    var parts := Tokens(header);
    var tPart := FindWithPrefix(parts, "t=");
    var sPart := FindWithPrefix(parts, "s=");
    if tPart.None? || sPart.None? then None else Some((tPart.value[2..], sPart.value[2..]))
  }

  /** `parseInt` of the timestamp text gives a number within the tolerance of now. */
  predicate Fresh(timestamp: string, toleranceSec: int, nowSec: int) {
    var tsSec := Decimal.ParseInt(timestamp);
    tsSec.Some? && Abs(nowSec - tsSec.value) <= toleranceSec
  }

  /** The decoded expected digest and the decoded supplied signature have the same
      length and the same bytes. */
  predicate DigestMatches(mac: Mac, secret: string, timestamp: string, signature: string, rawBody: string) {
    var a := Hex.Decode(ComputeHmacHex(mac, secret, timestamp, rawBody));
    var b := Hex.Decode(signature);
    if |a| != |b| then false else a == b
  }

  /** `verifySignature(header, rawBody)` with the secret, the tolerance and the current
      time in seconds passed in. The `try`/`catch` in the source guards a comparison that
      cannot throw once the lengths agree, so this function is total. */
  function Verify(header: Option<string>, rawBody: string, secret: string, toleranceSec: int,
                  nowSec: int, mac: Mac): (ok: bool)
    ensures ok ==> header.Some? && header.value != "" && secret != ""
  {
    if header.None? || header.value == "" || secret == "" then false
    else
      var fields := HeaderFields(header.value);
      if fields.None? then false
      else if !Fresh(fields.value.0, toleranceSec, nowSec) then false
      else DigestMatches(mac, secret, fields.value.0, fields.value.1, rawBody)
  }

  /** What acceptance means: a non-empty header and secret; a `t=` and an `s=` token, the
      first of each counting; a timestamp whose `parseInt` is within the tolerance of now
      (the boundary included); and a signature whose decoded bytes are exactly the HMAC
      of the raw timestamp text, a dot and the raw body. */
  lemma VerifyMeaning(header: Option<string>, rawBody: string, secret: string, toleranceSec: int,
                      nowSec: int, mac: Mac)
    ensures Verify(header, rawBody, secret, toleranceSec, nowSec, mac) <==>
      && header.Some? && header.value != "" && secret != ""
      && HeaderFields(header.value).Some?
      && var (timestamp, signature) := HeaderFields(header.value).value;
         && Fresh(timestamp, toleranceSec, nowSec)
         && Hex.Decode(signature) == mac(secret, timestamp + "." + rawBody)
  {
    if header.Some? && header.value != "" && secret != "" && HeaderFields(header.value).Some? {
      var (timestamp, signature) := HeaderFields(header.value).value;
      Hex.DecodeEncode(mac(secret, timestamp + "." + rawBody));
    }
  }

  lemma {:induction false} TrimAllAppend(a: seq<string>, b: seq<string>)
    ensures TrimAll(a + b) == TrimAll(a) + TrimAll(b)
  {
    if |a| > 0 {
      assert (a + b)[0] == a[0];
      assert (a + b)[1..] == a[1..] + b;
      TrimAllAppend(a[1..], b);
    } else {
      assert a + b == b;
    }
  }

  lemma {:induction false} FindWithPrefixAppend(a: seq<string>, b: seq<string>, prefix: string)
    ensures FindWithPrefix(a + b, prefix) ==
      if FindWithPrefix(a, prefix).Some? then FindWithPrefix(a, prefix) else FindWithPrefix(b, prefix)
  {
    if |a| > 0 {
      assert (a + b)[1..] == a[1..] + b;
      FindWithPrefixAppend(a[1..], b, prefix);
    } else {
      assert a + b == b;
    }
  }

  /** Joining two headers with a comma concatenates their token lists. */
  lemma TokensAppend(a: string, b: string)
    ensures Tokens(a + "," + b) == Tokens(a) + Tokens(b)
  {
    Text.SplitAppend(a, b, ',');
    TrimAllAppend(Text.Split(a, ','), Text.Split(b, ','));
  }

  /** Tokens after a header that already has a `t=` and an `s=` token change nothing:
      the first match of each wins. */
  lemma AppendedTokensIgnored(header: string, extra: string, rawBody: string, secret: string,
                              toleranceSec: int, nowSec: int, mac: Mac)
    requires FindWithPrefix(Tokens(header), "t=").Some? && FindWithPrefix(Tokens(header), "s=").Some?
    ensures Verify(Some(header + "," + extra), rawBody, secret, toleranceSec, nowSec, mac)
         == Verify(Some(header), rawBody, secret, toleranceSec, nowSec, mac)
  {
    TokensAppend(header, extra);
    FindWithPrefixAppend(Tokens(header), Tokens(extra), "t=");
    FindWithPrefixAppend(Tokens(header), Tokens(extra), "s=");
  }

  /** Tokens that are neither `t=` nor `s=` tokens, placed before the header, change
      nothing: unknown keys are ignored wherever they stand. */
  lemma PrependedTokensIgnored(junk: string, header: string, rawBody: string, secret: string,
                               toleranceSec: int, nowSec: int, mac: Mac)
    requires header != ""
    requires FindWithPrefix(Tokens(junk), "t=").None? && FindWithPrefix(Tokens(junk), "s=").None?
    ensures Verify(Some(junk + "," + header), rawBody, secret, toleranceSec, nowSec, mac)
         == Verify(Some(header), rawBody, secret, toleranceSec, nowSec, mac)
  {
    TokensAppend(junk, header);
    FindWithPrefixAppend(Tokens(junk), Tokens(header), "t=");
    FindWithPrefixAppend(Tokens(junk), Tokens(header), "s=");
  }

  /** The token `key` + `value`, alone, is its own token list when `value` has no comma
      and does not end in white space. */
  lemma SingleToken(key: string, value: string)
    requires |key| >= 1 && !Text.IsJsSpace(key[0]) && ',' !in key && ',' !in value
    requires |value| >= 1 ==> !Text.IsJsSpace(value[|value| - 1])
    requires |value| == 0 ==> !Text.IsJsSpace(key[|key| - 1])
    ensures Tokens(key + value) == [key + value]
  {
    var s := key + value;
    assert ',' !in s by {
      forall i | 0 <= i < |s| ensures s[i] != ',' {
        if i < |key| { assert s[i] == key[i]; } else { assert s[i] == value[i - |key|]; }
      }
    }
    Text.SplitNoSeparator(s, ',');
    Text.TrimUnchanged(s);
  }

  /** A header made of one `t=` token and one `s=` token, in either order, yields the
      texts after the two prefixes. */
  lemma TwoTokenFields(timestamp: string, signature: string, signatureFirst: bool)
    requires |timestamp| >= 1 && ',' !in timestamp && !Text.IsJsSpace(timestamp[|timestamp| - 1])
    requires ',' !in signature
    requires |signature| >= 1 ==> !Text.IsJsSpace(signature[|signature| - 1])
    ensures
      var tToken := "t=" + timestamp;
      var sToken := "s=" + signature;
      HeaderFields(if signatureFirst then sToken + "," + tToken else tToken + "," + sToken)
        == Some((timestamp, signature))
  {
    var tToken := "t=" + timestamp;
    var sToken := "s=" + signature;
    SingleToken("t=", timestamp);
    SingleToken("s=", signature);
    assert Text.StartsWith(tToken, "t=") && !Text.StartsWith(tToken, "s=");
    assert Text.StartsWith(sToken, "s=") && !Text.StartsWith(sToken, "t=");
    assert tToken[2..] == timestamp && sToken[2..] == signature;
    if signatureFirst {
      TokensAppend(sToken, tToken);
      assert Tokens(sToken + "," + tToken) == [sToken, tToken];
      assert [sToken, tToken][1..] == [tToken];
      assert FindWithPrefix([sToken, tToken], "t=") == Some(tToken);
      assert FindWithPrefix([sToken, tToken], "s=") == Some(sToken);
    } else {
      TokensAppend(tToken, sToken);
      assert Tokens(tToken + "," + sToken) == [tToken, sToken];
      assert [tToken, sToken][1..] == [sToken];
      assert FindWithPrefix([tToken, sToken], "t=") == Some(tToken);
      assert FindWithPrefix([tToken, sToken], "s=") == Some(sToken);
    }
  }

  /** Soundness: a header carrying a decimal timestamp inside the window and the hex
      HMAC of that timestamp text, a dot and the body is accepted, whichever of the two
      tokens comes first. The timestamp text itself (leading zeros included) is what is
      signed, not the number it parses to. */
  lemma SignedHeaderAccepted(timestamp: string, rawBody: string, secret: string, toleranceSec: int,
                             nowSec: int, mac: Mac, signatureFirst: bool)
    requires secret != ""
    requires |timestamp| >= 1 && Decimal.AllDigits(timestamp)
    requires Abs(nowSec - Decimal.DigitsValue(timestamp)) <= toleranceSec
    ensures
      var tToken := "t=" + timestamp;
      var sToken := "s=" + ComputeHmacHex(mac, secret, timestamp, rawBody);
      Verify(Some(if signatureFirst then sToken + "," + tToken else tToken + "," + sToken),
             rawBody, secret, toleranceSec, nowSec, mac)
  {
    var digest := mac(secret, timestamp + "." + rawBody);
    var hex := Hex.Encode(digest);
    var tToken := "t=" + timestamp;
    var sToken := "s=" + hex;
    var header := if signatureFirst then sToken + "," + tToken else tToken + "," + sToken;
    DigitsAreTokenText(timestamp);
    Hex.EncodeHasNoSeparator(digest, ',');
    if |hex| > 0 {
      assert Hex.IsLowerHex(hex[|hex| - 1]);
    }
    TwoTokenFields(timestamp, hex, signatureFirst);
    FreshDigits(timestamp, toleranceSec, nowSec);
    OwnDigestMatches(mac, secret, timestamp, rawBody);
    VerifyFromFields(header, rawBody, secret, toleranceSec, nowSec, mac);
  }

  lemma VerifyFromFields(header: string, rawBody: string, secret: string, toleranceSec: int,
                         nowSec: int, mac: Mac)
    requires header != "" && secret != "" && HeaderFields(header).Some?
    requires Fresh(HeaderFields(header).value.0, toleranceSec, nowSec)
    requires DigestMatches(mac, secret, HeaderFields(header).value.0, HeaderFields(header).value.1, rawBody)
    ensures Verify(Some(header), rawBody, secret, toleranceSec, nowSec, mac)
  {
  }

  lemma FreshDigits(timestamp: string, toleranceSec: int, nowSec: int)
    requires |timestamp| >= 1 && Decimal.AllDigits(timestamp)
    requires Abs(nowSec - Decimal.DigitsValue(timestamp)) <= toleranceSec
    ensures Fresh(timestamp, toleranceSec, nowSec)
  {
    Decimal.ParseIntOfDigits(timestamp);
  }

  lemma OwnDigestMatches(mac: Mac, secret: string, timestamp: string, rawBody: string)
    ensures DigestMatches(mac, secret, timestamp, ComputeHmacHex(mac, secret, timestamp, rawBody), rawBody)
  {
    Hex.DecodeEncode(mac(secret, timestamp + "." + rawBody));
  }

  lemma DigitsAreTokenText(timestamp: string)
    requires |timestamp| >= 1 && Decimal.AllDigits(timestamp)
    ensures ',' !in timestamp && !Text.IsJsSpace(timestamp[|timestamp| - 1])
  {
    assert Decimal.IsDigit(timestamp[|timestamp| - 1]);
  }

  /** A timestamp outside the window is rejected however the header is signed. */
  lemma StaleTimestampRejected(header: string, rawBody: string, secret: string, toleranceSec: int,
                               nowSec: int, mac: Mac)
    requires FindWithPrefix(Tokens(header), "t=").Some?
    requires var ts := Decimal.ParseInt(FindWithPrefix(Tokens(header), "t=").value[2..]);
      ts.Some? && Abs(nowSec - ts.value) > toleranceSec
    ensures !Verify(Some(header), rawBody, secret, toleranceSec, nowSec, mac)
  {
  }
}

=== FILE: store.dfy ===
/** The three tables of src/db.js (webhook_events, analyses, crm_dispatches) and the
    operations the code runs on them, with the table semantics their SQL states. The
    database clock (`now()`) is a parameter. Without a configured database every
    operation answers its empty result and changes nothing. */
module Store {
  import opened Wrappers
  import opened Js
  import Decimal

  /** The fields `insertWebhookEvent` reads from its argument. */
  datatype NewEvent = NewEvent(
    eventType: string,
    eventTimestamp: int,
    agentId: Option<string>,
    conversationId: Option<string>,
    status: Option<string>,
    hasAudio: Option<bool>,
    hasUserAudio: Option<bool>,
    hasResponseAudio: Option<bool>,
    payload: Json)

  /** A row of webhook_events; `None` is SQL NULL. */
  datatype EventRow = EventRow(
    id: nat,
    eventType: string,
    eventTimestamp: int,
    agentId: Option<string>,
    conversationId: Option<string>,
    status: Option<string>,
    hasAudio: Option<bool>,
    hasUserAudio: Option<bool>,
    hasResponseAudio: Option<bool>,
    payload: Json,
    processed: bool,
    processedAt: Option<int>,
    processorNote: Option<string>,
    receivedAt: int)

  datatype AnalysisRow = AnalysisRow(id: nat, eventId: int, model: string, result: Json, createdAt: int)

  datatype DispatchRow = DispatchRow(
    id: nat, eventId: int, payload: Json, status: string, responseText: Option<string>, createdAt: int)

  /** The row limit of `fetchUnprocessed()` called without one. */
  const DefaultFetchLimit: nat := 100

  /** `v || null` for a text value: the empty string is stored as NULL too. */
  function TextOrNull(v: Option<string>): (r: Option<string>)
    ensures r.None? <==> v.None? || v.value == ""
    ensures r.Some? ==> r == v
  {
    if v.Some? && v.value != "" then v else None
  }

  /** What a `jsonb` column holds for a JavaScript value bound through node-postgres, or
      `None` when the insert fails. An object travels as its `JSON.stringify` text and a
      number or boolean as its text, so each is stored as it is. An array travels as a
      PostgreSQL array literal: for `[]` that is `{}`, the JSON text of an empty object,
      and for any other array it is text that is not JSON. A string travels as it is and
      is read as JSON text (`readJson`, PostgreSQL's JSON reader). `null` is SQL NULL,
      which the NOT NULL `jsonb` columns reject. */
  function JsonbValue(v: Json, readJson: string -> Option<Json>): (r: Option<Json>)
    ensures v.JObj? || v.JNum? || v.JBool? ==> r == Some(v)
    ensures v.JArr? ==> r == (if v.items == [] then Some(EmptyObject) else None)
    ensures v.JStr? ==> r == readJson(v.s)
    ensures v.JNull? ==> r.None?
  {
    match v
    case JNull => None
    case JArr(items) => if items == [] then Some(EmptyObject) else None
    case JStr(text) => readJson(text)
    case _ => Some(v)
  }

  /** The row `insertWebhookEvent` adds with the stored `payload`: falsy correlation keys
      and status become NULL, the audio flags only when they are null or undefined (`??`),
      and the row starts unprocessed. */
  function NewRow(e: NewEvent, payload: Json, id: nat, now: int): EventRow {
    EventRow(id, e.eventType, e.eventTimestamp, TextOrNull(e.agentId), TextOrNull(e.conversationId),
             TextOrNull(e.status), e.hasAudio, e.hasUserAudio, e.hasResponseAudio, payload,
             false, None, None, now)
  }

  /** The insert succeeds: the payload is accepted by its `jsonb` column, the timestamp
      fits `bigint`, and the `bigserial` sequence has an id left. */
  predicate Insertable(e: NewEvent, nextId: int, readJson: string -> Option<Json>) {
    && JsonbValue(e.payload, readJson).Some?
    && Decimal.MinBigint <= e.eventTimestamp <= Decimal.MaxBigint && nextId <= Decimal.MaxBigint
  }

  /** How PostgreSQL receives a JavaScript value bound to a `bigint` parameter through
      node-postgres: numbers and numeric strings are read as integers, `null` is SQL
      NULL, anything else is an "invalid input syntax" error. */
  datatype BigintParam = Null | Value(n: int) | Invalid

  function ToBigint(v: Json): (r: BigintParam)
    ensures r.Value? ==> Decimal.MinBigint <= r.n <= Decimal.MaxBigint
  {
    match v
    case JNull => Null
    case JNum(n) => if Decimal.MinBigint <= n <= Decimal.MaxBigint then Value(n) else Invalid
    case JStr(s) =>
      var p := Decimal.BigintFromText(s);
      if p.Some? then Value(p.value) else Invalid
    case _ => Invalid
  }

  /** The ids of `any($1::bigint[])`, or `None` when one element is not a bigint (the
      query fails). NULL elements match no row. */
  function IdSet(ids: seq<Json>): (r: Option<set<int>>)
    ensures r.Some? <==> forall k :: 0 <= k < |ids| ==> !ToBigint(ids[k]).Invalid?
    ensures r.Some? ==> forall n :: n in r.value <==> exists k :: 0 <= k < |ids| && ToBigint(ids[k]) == Value(n)
  {
    if |ids| == 0 then Some({})
    else
      var rest := IdSet(ids[1..]);
      assert forall k :: 1 <= k < |ids| ==> ids[k] == ids[1..][k - 1];
      match ToBigint(ids[0])
      case Invalid => None
      case Null => rest
      case Value(n) => if rest.None? then None else Some({n} + rest.value)
  }

  /** One row after the `update` of `markProcessed`: processed, stamped, and the note
      replaced only by a non-empty one (`coalesce($2, processor_note)` with `note || null`). */
  function MarkRow(e: EventRow, note: Option<string>, now: int): EventRow {
    e.(processed := true, processedAt := Some(now),
       processorNote := if TextOrNull(note).Some? then note else e.processorNote)
  }

  /** The table after `update ... where id = any(ids)`. */
  function MarkAll(events: seq<EventRow>, ids: set<int>, note: Option<string>, now: int): (r: seq<EventRow>)
    ensures |r| == |events|
  {
    seq(|events|, i requires 0 <= i < |events| =>
      if events[i].id in ids then MarkRow(events[i], note, now) else events[i])
  }

  /** The number of rows whose id is in `ids` (the update's row count). */
  function CountMatching(events: seq<EventRow>, ids: set<int>): nat {
    if |events| == 0 then 0
    else CountMatching(events[..|events| - 1], ids) + (if events[|events| - 1].id in ids then 1 else 0)
  }

  // ---- fetchUnprocessed: filter, order by event_timestamp, limit ----

  function Unprocessed(events: seq<EventRow>): (r: seq<EventRow>)
    ensures forall i :: 0 <= i < |r| ==> !r[i].processed && r[i] in events
    ensures forall e :: e in events && !e.processed ==> e in r
  {
    if |events| == 0 then []
    else
      var rest := Unprocessed(events[1..]);
      assert forall e :: e in events[1..] ==> e in events;
      if events[0].processed then rest else [events[0]] + rest
  }

  ghost predicate SortedByTimestamp(rows: seq<EventRow>) {
    forall i, j :: 0 <= i < j < |rows| ==> rows[i].eventTimestamp <= rows[j].eventTimestamp
  }

  /** Places `e` before the first row that is not older than it. */
  function InsertByTimestamp(e: EventRow, rows: seq<EventRow>): (r: seq<EventRow>)
    ensures |r| == |rows| + 1
    ensures multiset(r) == multiset(rows) + multiset{e}
  {
    if |rows| == 0 || e.eventTimestamp <= rows[0].eventTimestamp then [e] + rows
    else
      assert rows == [rows[0]] + rows[1..];
      [rows[0]] + InsertByTimestamp(e, rows[1..])
  }

  /** A lower bound of `e` and of every row bounds the rows after the insertion. */
  lemma InsertLowerBound(b: int, e: EventRow, rows: seq<EventRow>)
    requires b <= e.eventTimestamp
    requires forall x :: x in rows ==> b <= x.eventTimestamp
    ensures forall x :: x in InsertByTimestamp(e, rows) ==> b <= x.eventTimestamp
  {
    var r := InsertByTimestamp(e, rows);
    forall x | x in r ensures b <= x.eventTimestamp {
      assert x in multiset(r);
    }
  }

  lemma {:induction false} InsertKeepsSorted(e: EventRow, rows: seq<EventRow>)
    requires SortedByTimestamp(rows)
    ensures SortedByTimestamp(InsertByTimestamp(e, rows))
  {
    if |rows| > 0 && e.eventTimestamp > rows[0].eventTimestamp {
      var tail := rows[1..];
      var rest := InsertByTimestamp(e, tail);
      InsertKeepsSorted(e, tail);
      assert forall x :: x in tail ==> rows[0].eventTimestamp <= x.eventTimestamp;
      InsertLowerBound(rows[0].eventTimestamp, e, tail);
      var r := [rows[0]] + rest;
      assert InsertByTimestamp(e, rows) == r;
      forall i, j | 0 <= i < j < |r| ensures r[i].eventTimestamp <= r[j].eventTimestamp {
        assert r[j] == rest[j - 1];
        if i == 0 {
          assert rest[j - 1] in rest;
        } else {
          assert r[i] == rest[i - 1];
        }
      }
    }
  }

  /** `order by event_timestamp asc`; rows with equal timestamps stay in table order
      (SQL leaves their order open). */
  function SortByTimestamp(rows: seq<EventRow>): (r: seq<EventRow>)
    ensures |r| == |rows|
    ensures multiset(r) == multiset(rows)
    ensures SortedByTimestamp(r)
  {
    if |rows| == 0 then []
    else
      assert rows == [rows[0]] + rows[1..];
      var rest := SortByTimestamp(rows[1..]);
      InsertKeepsSorted(rows[0], rest);
      InsertByTimestamp(rows[0], rest)
  }

  /** The result of the `fetchUnprocessed` query over a table. */
  function OldestUnprocessed(events: seq<EventRow>, limit: nat): (r: seq<EventRow>)
    ensures |r| <= limit
  {
    var sorted := SortByTimestamp(Unprocessed(events));
    sorted[..if limit < |sorted| then limit else |sorted|]
  }

  /** The fetched rows are unprocessed rows of the table, at most `limit` of them, oldest
      first, and no unprocessed row left out is older than one returned. */
  lemma {:induction false} OldestUnprocessedMeaning(events: seq<EventRow>, limit: nat)
    ensures var rows := OldestUnprocessed(events, limit);
      && |rows| <= limit
      && |rows| == (if limit < |Unprocessed(events)| then limit else |Unprocessed(events)|)
      && (forall i :: 0 <= i < |rows| ==> !rows[i].processed && rows[i] in events)
      && SortedByTimestamp(rows)
      && (forall e, i :: e in events && !e.processed && e !in rows && 0 <= i < |rows| ==>
            rows[i].eventTimestamp <= e.eventTimestamp)
  {
    FetchedAreUnprocessed(events, limit);
    FetchedSorted(events, limit);
    FetchedOldest(events, limit);
  }

  lemma FetchedAreUnprocessed(events: seq<EventRow>, limit: nat)
    ensures var rows := OldestUnprocessed(events, limit);
      forall i :: 0 <= i < |rows| ==> !rows[i].processed && rows[i] in events
  {
    var u := Unprocessed(events);
    var rows := OldestUnprocessed(events, limit);
    forall i | 0 <= i < |rows| ensures !rows[i].processed && rows[i] in events {
      assert rows[i] == SortByTimestamp(u)[i];
      InSorted(u, rows[i]);
    }
  }

  lemma FetchedSorted(events: seq<EventRow>, limit: nat)
    ensures SortedByTimestamp(OldestUnprocessed(events, limit))
  {
    var sorted := SortByTimestamp(Unprocessed(events));
    var rows := OldestUnprocessed(events, limit);
    forall i, j | 0 <= i < j < |rows| ensures rows[i].eventTimestamp <= rows[j].eventTimestamp {
      assert rows[i] == sorted[i] && rows[j] == sorted[j];
    }
  }

  lemma FetchedOldest(events: seq<EventRow>, limit: nat)
    ensures var rows := OldestUnprocessed(events, limit);
      forall e, i :: e in events && !e.processed && e !in rows && 0 <= i < |rows| ==>
        rows[i].eventTimestamp <= e.eventTimestamp
  {
    var u := Unprocessed(events);
    var sorted := SortByTimestamp(u);
    var rows := OldestUnprocessed(events, limit);
    forall e, i | e in events && !e.processed && e !in rows && 0 <= i < |rows|
      ensures rows[i].eventTimestamp <= e.eventTimestamp
    {
      InSorted(u, e);
      var j :| 0 <= j < |sorted| && sorted[j] == e;
      assert j >= |rows|;
      assert rows[i] == sorted[i];
    }
  }

  /** Sorting keeps exactly the rows it was given. */
  lemma InSorted(rows: seq<EventRow>, x: EventRow)
    ensures x in SortByTimestamp(rows) <==> x in rows
  {
    assert x in multiset(SortByTimestamp(rows)) <==> x in multiset(rows);
  }

  // ---- getLatestAnalysisByEventId ----

  /** `order by created_at desc limit 1` over the analyses of one event; among rows with
      the same `created_at` the last inserted is taken (SQL leaves the choice open). */
  function LatestAnalysis(analyses: seq<AnalysisRow>, eventId: int): (r: Option<AnalysisRow>)
    ensures r.None? <==> forall a :: a in analyses ==> a.eventId != eventId
    ensures r.Some? ==> r.value in analyses && r.value.eventId == eventId
    ensures r.Some? ==> forall a :: a in analyses && a.eventId == eventId ==> a.createdAt <= r.value.createdAt
  {
    if |analyses| == 0 then None
    else
      var init := analyses[..|analyses| - 1];
      var last := analyses[|analyses| - 1];
      assert analyses == init + [last];
      var rest := LatestAnalysis(init, eventId);
      if last.eventId != eventId then rest
      else if rest.None? || rest.value.createdAt <= last.createdAt then Some(last)
      else rest
  }

  /** `select 1 from crm_dispatches where event_id = $1 and status = 'success'`. */
  function HasSuccess(dispatches: seq<DispatchRow>, eventId: int): (r: bool)
    ensures r <==> exists i :: 0 <= i < |dispatches| && dispatches[i].eventId == eventId
                                && dispatches[i].status == "success"
  {
    if |dispatches| == 0 then false
    else
      var rest := HasSuccess(dispatches[1..], eventId);
      assert forall i :: 1 <= i < |dispatches| ==> dispatches[i] == dispatches[1..][i - 1];
      (dispatches[0].eventId == eventId && dispatches[0].status == "success") || rest
  }

  /** The row with id `id`, if any. */
  function FindEvent(events: seq<EventRow>, id: int): (r: Option<EventRow>)
    ensures r.None? <==> forall i :: 0 <= i < |events| ==> events[i].id != id
    ensures r.Some? ==> r.value in events && r.value.id == id
  {
    if |events| == 0 then None
    else if events[0].id == id then Some(events[0])
    else
      var rest := FindEvent(events[1..], id);
      assert forall i :: 1 <= i < |events| ==> events[i] == events[1..][i - 1];
      rest
  }

  predicate HasEvent(events: seq<EventRow>, id: int) {
    exists i :: 0 <= i < |events| && events[i].id == id
  }

  /** Event ids increase along the table and stay below the next value of the sequence. */
  ghost predicate EventsNumbered(events: seq<EventRow>, next: int) {
    && (forall i, j :: 0 <= i < j < |events| ==> events[i].id < events[j].id)
    && (forall i :: 0 <= i < |events| ==> events[i].id < next)
  }

  ghost predicate AnalysesNumbered(analyses: seq<AnalysisRow>, next: int) {
    && (forall i, j :: 0 <= i < j < |analyses| ==> analyses[i].id < analyses[j].id)
    && (forall i :: 0 <= i < |analyses| ==> analyses[i].id < next)
  }

  ghost predicate DispatchesNumbered(dispatches: seq<DispatchRow>, next: int) {
    && (forall i, j :: 0 <= i < j < |dispatches| ==> dispatches[i].id < dispatches[j].id)
    && (forall i :: 0 <= i < |dispatches| ==> dispatches[i].id < next)
  }

  /** The foreign keys: every analysis and dispatch row refers to an event. */
  ghost predicate References(events: seq<EventRow>, analyses: seq<AnalysisRow>, dispatches: seq<DispatchRow>) {
    && (forall a :: a in analyses ==> HasEvent(events, a.eventId))
    && (forall d :: d in dispatches ==> HasEvent(events, d.eventId))
  }

  class Database {
    /** Whether `DATABASE_URL` is set (the pool exists). */
    const configured: bool
    var events: seq<EventRow>
    var analyses: seq<AnalysisRow>
    var dispatches: seq<DispatchRow>
    /** The next values of the three `bigserial` sequences. */
    var nextEventId: nat
    var nextAnalysisId: nat
    var nextDispatchId: nat

    /** Ids are assigned in increasing order and every analysis and dispatch row refers
        to an event (the foreign keys); without a database the tables stay empty. */
    ghost predicate Valid()
      reads this
    {
      && EventsNumbered(events, nextEventId)
      && nextEventId <= Decimal.MaxBigint + 1
      && AnalysesNumbered(analyses, nextAnalysisId)
      && DispatchesNumbered(dispatches, nextDispatchId)
      && References(events, analyses, dispatches)
      && (!configured ==> events == [] && analyses == [] && dispatches == [])
    }

    constructor (configured: bool)
      ensures Valid() && this.configured == configured
      ensures events == [] && analyses == [] && dispatches == []
    {
      this.configured := configured;
      events, analyses, dispatches := [], [], [];
      nextEventId, nextAnalysisId, nextDispatchId := 1, 1, 1;
    }

    /** `insertWebhookEvent(event)`: appends exactly one unprocessed row, or fails
        without a change when the row breaks a column constraint (a payload the `jsonb`
        column rejects, a timestamp outside `bigint`) or the id sequence is exhausted. */
    method InsertWebhookEvent(e: NewEvent, now: int, readJson: string -> Option<Json>) returns (r: Result<bool>)
      requires Valid()
      modifies this
      ensures Valid()
      ensures !configured ==> r == Ok(false) && events == old(events)
      ensures configured && !Insertable(e, old(nextEventId), readJson) ==> r.Err? && events == old(events)
      ensures configured && Insertable(e, old(nextEventId), readJson) ==>
        r == Ok(true) && events == old(events) + [NewRow(e, JsonbValue(e.payload, readJson).value, old(nextEventId), now)]
      ensures analyses == old(analyses) && dispatches == old(dispatches)
      ensures nextAnalysisId == old(nextAnalysisId) && nextDispatchId == old(nextDispatchId)
    {
      if !configured {
        return Ok(false);
      }
      if !Insertable(e, nextEventId, readJson) {
        return Err("insert into webhook_events failed");
      }
      var row := NewRow(e, JsonbValue(e.payload, readJson).value, nextEventId, now);
      events := events + [row];
      nextEventId := nextEventId + 1;
      forall a | a in analyses ensures HasEvent(events, a.eventId) {
        var i :| 0 <= i < |old(events)| && old(events)[i].id == a.eventId;
        assert events[i] == old(events)[i];
      }
      forall d | d in dispatches ensures HasEvent(events, d.eventId) {
        var i :| 0 <= i < |old(events)| && old(events)[i].id == d.eventId;
        assert events[i] == old(events)[i];
      }
      r := Ok(true);
    }

    /** `fetchUnprocessed(limit)`. */
    method FetchUnprocessed(limit: nat := DefaultFetchLimit) returns (rows: seq<EventRow>)
      requires Valid()
      ensures !configured ==> rows == []
      ensures configured ==> rows == OldestUnprocessed(events, limit)
      ensures |rows| <= limit
      ensures forall i :: 0 <= i < |rows| ==> !rows[i].processed && rows[i] in events
      ensures SortedByTimestamp(rows)
      ensures forall e, i :: e in events && !e.processed && e !in rows && 0 <= i < |rows| ==>
                rows[i].eventTimestamp <= e.eventTimestamp
    {
      if !configured {
        return [];
      }
      OldestUnprocessedMeaning(events, limit);
      rows := OldestUnprocessed(events, limit);
    }

    /** `markProcessed(ids, note)`: `Ok(updated)` or the error the query raises. */
    method MarkProcessed(ids: seq<Json>, note: Option<string>, now: int) returns (r: Result<nat>)
      requires Valid()
      modifies this`events
      ensures Valid()
      ensures !configured || |ids| == 0 ==> r == Ok(0) && events == old(events)
      ensures configured && |ids| > 0 && IdSet(ids).None? ==> r.Err? && events == old(events)
      ensures configured && |ids| > 0 && IdSet(ids).Some? ==>
        && r == Ok(CountMatching(old(events), IdSet(ids).value))
        && events == MarkAll(old(events), IdSet(ids).value, note, now)
    {
      if !configured || |ids| == 0 {
        return Ok(0);
      }
      var keys := IdSet(ids);
      if keys.None? {
        return Err("invalid input syntax for type bigint");
      }
      var updated := CountMatching(events, keys.value);
      events := MarkAll(events, keys.value, note, now);
      MarkAllKeepsIds(old(events), keys.value, note, now);
      r := Ok(updated);
    }

    /** `insertAnalysis(eventId, model, result)`: `Ok(None)` is `{inserted: false}`,
        `Ok(Some(id))` the new row's id; NULL or unknown event ids and a result the
        `jsonb` column rejects are the errors the insert raises. */
    method InsertAnalysis(eventId: Json, model: string, result: Json, now: int, readJson: string -> Option<Json>)
      returns (r: Result<Option<nat>>)
      requires Valid()
      modifies this`analyses, this`nextAnalysisId
      ensures Valid()
      ensures !configured ==> r == Ok(None) && analyses == old(analyses)
      ensures configured && (!ToBigint(eventId).Value? || !HasEvent(events, ToBigint(eventId).n)
                             || JsonbValue(result, readJson).None?) ==>
        r.Err? && analyses == old(analyses)
      ensures configured && ToBigint(eventId).Value? && HasEvent(events, ToBigint(eventId).n)
                         && JsonbValue(result, readJson).Some? ==>
        && r == Ok(Some(old(nextAnalysisId)))
        && analyses == old(analyses) +
             [AnalysisRow(old(nextAnalysisId), ToBigint(eventId).n, model, JsonbValue(result, readJson).value, now)]
    {
      if !configured {
        return Ok(None);
      }
      var id := ToBigint(eventId);
      var stored := JsonbValue(result, readJson);
      if !id.Value? || !HasEvent(events, id.n) || stored.None? {
        return Err("insert into analyses violates a constraint");
      }
      var row := AnalysisRow(nextAnalysisId, id.n, model, stored.value, now);
      analyses := analyses + [row];
      nextAnalysisId := nextAnalysisId + 1;
      r := Ok(Some(row.id));
    }

    /** `hasSuccessfulCrmDispatch(eventId)`. */
    method HasSuccessfulCrmDispatch(eventId: int) returns (b: bool)
      requires Valid()
      ensures b <==> configured && HasSuccess(dispatches, eventId)
      ensures b <==> (configured &&
        exists i :: 0 <= i < |dispatches| && dispatches[i].eventId == eventId && dispatches[i].status == "success")
    {
      if !configured {
        return false;
      }
      b := HasSuccess(dispatches, eventId);
    }

    /** `insertCrmDispatchAttempt(eventId, payload, status, responseText)`: appends one
        row, storing an empty response text as NULL; earlier rows are untouched. */
    method InsertCrmDispatchAttempt(eventId: int, payload: Json, status: string, responseText: Option<string>, now: int,
                                    readJson: string -> Option<Json>)
      returns (r: Result<bool>)
      requires Valid()
      modifies this`dispatches, this`nextDispatchId
      ensures Valid()
      ensures !configured ==> r == Ok(false) && dispatches == old(dispatches)
      ensures configured && (!HasEvent(events, eventId) || JsonbValue(payload, readJson).None?) ==>
        r.Err? && dispatches == old(dispatches)
      ensures configured && HasEvent(events, eventId) && JsonbValue(payload, readJson).Some? ==>
        && r == Ok(true)
        && dispatches == old(dispatches) + [DispatchRow(old(nextDispatchId), eventId, JsonbValue(payload, readJson).value,
                                                        status, TextOrNull(responseText), now)]
    {
      if !configured {
        return Ok(false);
      }
      var stored := JsonbValue(payload, readJson);
      if !HasEvent(events, eventId) || stored.None? {
        return Err("insert into crm_dispatches violates a constraint");
      }
      dispatches := dispatches + [DispatchRow(nextDispatchId, eventId, stored.value, status, TextOrNull(responseText), now)];
      nextDispatchId := nextDispatchId + 1;
      r := Ok(true);
    }

    /** `getEventById(eventId)`: the row with that id, or `None` (null). */
    method GetEventById(eventId: int) returns (r: Option<EventRow>)
      requires Valid()
      ensures !configured ==> r.None?
      ensures r.Some? ==> r.value in events && r.value.id == eventId
      ensures configured && HasEvent(events, eventId) ==> r.Some?
    {
      if !configured {
        return None;
      }
      r := FindEvent(events, eventId);
    }

    /** `getLatestAnalysisByEventId(eventId)`: the event's analysis with the greatest
        `created_at`, or `None` (null) when it has none. */
    method GetLatestAnalysisByEventId(eventId: int) returns (r: Option<AnalysisRow>)
      requires Valid()
      ensures !configured ==> r.None?
      ensures configured ==> r == LatestAnalysis(analyses, eventId)
      ensures configured ==> (r.None? <==> forall a :: a in analyses ==> a.eventId != eventId)
      ensures r.Some? ==> r.value in analyses && r.value.eventId == eventId
      ensures r.Some? ==> forall a :: a in analyses && a.eventId == eventId ==> a.createdAt <= r.value.createdAt
    {
      if !configured {
        return None;
      }
      r := LatestAnalysis(analyses, eventId);
    }
  }

  /** The update leaves every id, so every foreign key, as it was. */
  lemma MarkAllKeepsIds(events: seq<EventRow>, ids: set<int>, note: Option<string>, now: int)
    ensures forall i :: 0 <= i < |events| ==> MarkAll(events, ids, note, now)[i].id == events[i].id
    ensures forall n :: HasEvent(MarkAll(events, ids, note, now), n) <==> HasEvent(events, n)
  {
    var r := MarkAll(events, ids, note, now);
    forall n ensures HasEvent(r, n) <==> HasEvent(events, n) {
      if HasEvent(events, n) {
        var i :| 0 <= i < |events| && events[i].id == n;
        assert r[i].id == n;
      }
    }
  }

  /** `markProcessed` sets `processed` exactly on the rows whose id it is given, replaces
      the note only with a non-empty one, and leaves every other row as it was. */
  lemma MarkAllEffect(events: seq<EventRow>, ids: set<int>, note: Option<string>, now: int, i: nat)
    requires i < |events|
    ensures var r := MarkAll(events, ids, note, now)[i];
      && (r.processed <==> events[i].id in ids || events[i].processed)
      && (events[i].id !in ids ==> r == events[i])
      && (events[i].id in ids ==>
            && r.processedAt == Some(now)
            && r.processorNote == (if note.Some? && note.value != "" then note else events[i].processorNote))
      && r.id == events[i].id && r.payload == events[i].payload && r.eventTimestamp == events[i].eventTimestamp
  {
  }

  lemma {:induction false} CountMatchingIds(a: seq<EventRow>, b: seq<EventRow>, ids: set<int>)
    requires |a| == |b|
    requires forall i :: 0 <= i < |a| ==> a[i].id == b[i].id
    ensures CountMatching(a, ids) == CountMatching(b, ids)
  {
    if |a| > 0 {
      CountMatchingIds(a[..|a| - 1], b[..|b| - 1], ids);
    }
  }

  /** Marking the same ids again keeps them processed, keeps the note when none is
      given, and counts the same rows again (the row count is of matched rows, not of
      rows that changed). */
  lemma RepeatedMark(events: seq<EventRow>, ids: set<int>, note: Option<string>, now: int, later: int)
    ensures var once := MarkAll(events, ids, note, now);
      var twice := MarkAll(once, ids, None, later);
      && CountMatching(twice, ids) == CountMatching(once, ids) == CountMatching(events, ids)
      && forall i :: 0 <= i < |events| && events[i].id in ids ==>
           twice[i].processed && twice[i].processorNote == once[i].processorNote
  {
    var once := MarkAll(events, ids, note, now);
    var twice := MarkAll(once, ids, None, later);
    MarkAllKeepsIds(events, ids, note, now);
    MarkAllKeepsIds(once, ids, None, later);
    CountMatchingIds(events, once, ids);
    CountMatchingIds(once, twice, ids);
  }

  /** The count is the number of matching rows. */
  lemma {:induction false} CountMatchingBound(events: seq<EventRow>, ids: set<int>)
    ensures CountMatching(events, ids) <= |events|
    ensures (forall i :: 0 <= i < |events| ==> events[i].id !in ids) ==> CountMatching(events, ids) == 0
    ensures (forall i :: 0 <= i < |events| ==> events[i].id in ids) ==> CountMatching(events, ids) == |events|
  {
    if |events| > 0 {
      CountMatchingBound(events[..|events| - 1], ids);
    }
  }

  /** A row from `fetchUnprocessed` as node-postgres returns it: `bigint` columns come
      back as decimal strings, NULL as `null`. `received_at` (a Date) is not read by any
      caller and is left out. */
  function RowToJson(e: EventRow): (j: Json)
    ensures j.JObj? && "id" in j.fields && "payload" in j.fields
    ensures j.fields["id"] == JStr(Decimal.IntToDecimal(e.id)) && j.fields["payload"] == e.payload
  {
    JObj(map[
      "id" := JStr(Decimal.IntToDecimal(e.id)),
      "event_type" := JStr(e.eventType),
      "event_timestamp" := JStr(Decimal.IntToDecimal(e.eventTimestamp)),
      "agent_id" := TextJson(e.agentId),
      "conversation_id" := TextJson(e.conversationId),
      "status" := TextJson(e.status),
      "has_audio" := BoolJson(e.hasAudio),
      "has_user_audio" := BoolJson(e.hasUserAudio),
      "has_response_audio" := BoolJson(e.hasResponseAudio),
      "payload" := e.payload])
  }

  function TextJson(v: Option<string>): Json {
    if v.Some? then JStr(v.value) else JNull
  }

  function BoolJson(v: Option<bool>): Json {
    if v.Some? then JBool(v.value) else JNull
  }

  /** The id of a fetched row, bound back to a `bigint` parameter, is the row's id. */
  lemma RowIdRoundTrip(e: EventRow)
    requires e.id <= Decimal.MaxBigint
    ensures ToBigint(RowToJson(e).fields["id"]) == Value(e.id)
  {
    Decimal.BigintFromDecimal(e.id);
  }
}

=== FILE: text.dfy ===
/** String helpers with the semantics of the JavaScript built-ins the code uses:
    `String.prototype.split` with a one-character separator, `Array.prototype.join`,
    `trim`, `startsWith`, `slice` and `toUpperCase`. */
module Text {

  /** The characters JavaScript's `trim` removes (ECMAScript WhiteSpace and LineTerminator). */
  predicate IsJsSpace(c: char) {
    c == '\t' || c == '\n' || c == '\U{000B}' || c == '\U{000C}' || c == '\r' || c == ' '
    || c == '\U{00A0}' || c == '\U{1680}' || ('\U{2000}' <= c <= '\U{200A}')
    || c == '\U{2028}' || c == '\U{2029}' || c == '\U{202F}' || c == '\U{205F}'
    || c == '\U{3000}' || c == '\U{FEFF}'
  }

  function TrimStart(s: string): (r: string)
    ensures |r| <= |s|
  {
    if |s| > 0 && IsJsSpace(s[0]) then TrimStart(s[1..]) else s
  }

  lemma TrimStartUnchanged(s: string)
    requires s != [] && !IsJsSpace(s[0])
    ensures TrimStart(s) == s
  {
  }

  function TrimEnd(s: string): (r: string)
    ensures |r| <= |s|
  {
    if |s| > 0 && IsJsSpace(s[|s| - 1]) then TrimEnd(s[..|s| - 1]) else s
  }

  function Trim(s: string): string {
    TrimEnd(TrimStart(s))
  }

  /** A string that begins and ends with a non-space character is its own trim. */
  lemma TrimUnchanged(s: string)
    requires s != [] && !IsJsSpace(s[0]) && !IsJsSpace(s[|s| - 1])
    ensures Trim(s) == s
  {
  }

  predicate StartsWith(s: string, prefix: string) {
    |prefix| <= |s| && s[..|prefix|] == prefix
  }

  /** `s.split(c)`: the pieces between occurrences of `c`; the empty string gives `[""]`. */
  function Split(s: string, c: char): (r: seq<string>)
    ensures |r| >= 1
    ensures forall k :: 0 <= k < |r| ==> c !in r[k]
  {
    if |s| == 0 then [""]
    else
      var rest := Split(s[1..], c);
      if s[0] == c then [""] + rest else [[s[0]] + rest[0]] + rest[1..]
  }

  /** `parts.join(sep)`. */
  function Join(parts: seq<string>, sep: string): string {
    if |parts| == 0 then ""
    else if |parts| == 1 then parts[0]
    else parts[0] + sep + Join(parts[1..], sep)
  }

  /** Joining one more part adds the separator and that part at the end. */
  lemma {:induction false} JoinSnoc(parts: seq<string>, x: string, sep: string)
    requires |parts| >= 1
    ensures Join(parts + [x], sep) == Join(parts, sep) + sep + x
  {
    if |parts| == 1 {
      assert (parts + [x])[1..] == [x];
    } else {
      assert (parts + [x])[1..] == parts[1..] + [x];
      JoinSnoc(parts[1..], x, sep);
    }
  }

  /** Splitting at a separator splits both halves independently. */
  lemma {:induction false} SplitAppend(a: string, b: string, c: char)
    ensures Split(a + [c] + b, c) == Split(a, c) + Split(b, c)
  {
    if |a| == 0 {
      assert a + [c] + b == [c] + b;
      assert ([c] + b)[1..] == b;
    } else {
      assert (a + [c] + b)[1..] == a[1..] + [c] + b;
      SplitAppend(a[1..], b, c);
    }
  }

  /** A piece with no separator in it splits to itself. */
  lemma {:induction false} SplitNoSeparator(a: string, c: char)
    requires c !in a
    ensures Split(a, c) == [a]
  {
    if |a| > 0 {
      assert c !in a[1..] by {
        forall i | 0 <= i < |a[1..]| ensures a[1..][i] != c { assert a[1..][i] == a[i + 1]; }
      }
      SplitNoSeparator(a[1..], c);
      assert [a[0]] + a[1..] == a;
    }
  }

  /** `join` and `split` on a one-character separator are inverse, as long as no
      part contains the separator. */
  lemma {:induction false} SplitJoin(parts: seq<string>, c: char)
    requires |parts| >= 1
    requires forall k :: 0 <= k < |parts| ==> c !in parts[k]
    ensures Split(Join(parts, [c]), c) == parts
  {
    if |parts| == 1 {
      SplitNoSeparator(parts[0], c);
    } else {
      SplitJoin(parts[1..], c);
      SplitNoSeparator(parts[0], c);
      SplitAppend(parts[0], Join(parts[1..], [c]), c);
      assert [parts[0]] + parts[1..] == parts;
    }
  }

  /** ASCII letters are upper-cased; every other character is kept. */
  function ToUpper(s: string): (r: string)
    ensures |r| == |s|
    ensures forall i :: 0 <= i < |s| ==> r[i] == UpperChar(s[i])
  {
    if |s| == 0 then "" else [UpperChar(s[0])] + ToUpper(s[1..])
  }

  function UpperChar(c: char): char {
    if 'a' <= c <= 'z' then (c as int - 32) as char else c
  }
}

=== FILE: webhook.dfy ===
/** The webhook endpoint of src/server.js: a request is accepted only with a valid
    signature, and an accepted event is normalised and appended, in an envelope, to the
    JSON-lines event log. The clock and the HMAC function are parameters. */
module Webhook {
  import opened Wrappers
  import opened Js
  import Signature

  /** One line of the event log: when it arrived, the signature header as sent
      (`None` when the header was absent, and then left out of the line) and the event. */
  datatype Envelope = Envelope(receivedAt: string, signature: Option<string>, event: Json)

  /** `event.x = Boolean(event.x)` for one flag of an object's fields. */
  function FlagAsBool(fields: map<string, Json>, flag: string): map<string, Json> {
    fields[flag := JBool(Truthy(Prop(Some(JObj(fields)), flag)))]
  }

  /** The event stored for a request body (`req.body || {}`): on an object the three
      audio flags become booleans by JavaScript truthiness and every other field stays;
      the strict JSON parser yields only objects and arrays, so the other falsy values
      that `||` would also replace (`null`, `false`, `0`, `""`) never reach the handler and
      `None` (no body) is the only one modelled; flags set on an array are not part of
      its JSON text, so an array is stored as it came. */
  function Normalise(body: Option<Json>): (event: Json)
    ensures body.Some? && !body.value.JObj? ==> event == body.value
    ensures body.None? || body.value.JObj? ==> event.JObj?
  {
    var v := if body.None? then EmptyObject else body.value;
    if !v.JObj? then v
    else JObj(FlagAsBool(FlagAsBool(FlagAsBool(v.fields, "has_audio"), "has_user_audio"), "has_response_audio"))
  }

  const AudioFlags: set<string> := {"has_audio", "has_user_audio", "has_response_audio"}

  /** What normalisation guarantees: the flags are present and boolean, true exactly
      when the request's value was truthy; the other fields are untouched and no field
      is added besides the flags. */
  lemma NormaliseMeaning(body: Option<Json>)
    requires body.None? || body.value.JObj?
    ensures var fields := Normalise(body).fields;
      var v := if body.None? then EmptyObject else body.value;
      && (forall flag :: flag in AudioFlags ==> flag in fields && fields[flag] == JBool(Truthy(Prop(Some(v), flag))))
      && (forall k :: k in fields <==> k in v.fields || k in AudioFlags)
      && (forall k :: k in v.fields && k !in AudioFlags ==> fields[k] == v.fields[k])
  {
  }

  /** A request without a body is stored as the three flags, all false. */
  lemma EmptyBodyNormalised()
    ensures Normalise(None) == JObj(map["has_audio" := JBool(false), "has_user_audio" := JBool(false),
                                        "has_response_audio" := JBool(false)])
  {
    NormaliseMeaning(None);
    var fields := Normalise(None).fields;
    assert fields.Keys == AudioFlags;
  }

  /** `POST /webhook/elevenlabs` with the secret and tolerance the server started with;
      `log` is the content of logs/events.jsonl, one envelope per line. */
  class Endpoint {
    const secret: string
    const toleranceSec: int
    var log: seq<Envelope>

    constructor (secret: string, toleranceSec: int, log: seq<Envelope>)
      ensures this.secret == secret && this.toleranceSec == toleranceSec && this.log == log
    {
      this.secret := secret;
      this.toleranceSec := toleranceSec;
      this.log := log;
    }

    /** One request: 401 and nothing logged unless the signature verifies, otherwise
        exactly one envelope appended and 200. `rawBody` is `None` for an empty body. */
    method Receive(signature: Option<string>, rawBody: Option<string>, body: Option<Json>,
                   nowSec: int, nowIso: string, mac: Signature.Mac)
      returns (status: int, text: string)
      modifies this`log
      ensures status == 401 <==> !Signature.Verify(signature, rawBody.GetOr(""), secret, toleranceSec, nowSec, mac)
      ensures status == 401 ==> text == "invalid signature" && log == old(log)
      ensures status != 401 ==>
        status == 200 && text == "ok" && log == old(log) + [Envelope(nowIso, signature, Normalise(body))]
    {
      var raw := rawBody.GetOr("");
      if !Signature.Verify(signature, raw, secret, toleranceSec, nowSec, mac) {
        return 401, "invalid signature";
      }
      var event := Normalise(body);
      log := log + [Envelope(nowIso, signature, event)];
      status, text := 200, "ok";
    }
  }
}

=== FILE: wrappers.dfy ===
/** Option and Result, used for JavaScript's `undefined` and for thrown errors. */
module Wrappers {

  datatype Option<+T> = None | Some(value: T) {
    function GetOr(default: T): T {
      match this
      case Some(v) => v
      case None => default
    }
  }

  /** A computation that either returns a value or throws an error message. */
  datatype Result<+T> = Ok(value: T) | Err(error: string)
}
